=== FILE: README.md ===
# PET/CT 3D patch preprocessing — a Dafny model

This project models the patch pipeline of `data_preprocess.py`. The script turns paired PET (input, "X") and CT (target, "Y") volumes into fixed-size cubic training patches. The model covers five pieces:

- **Block indexer** (`create_index_3d`). Each axis is zero-padded by `dim - dim // B * B`, with the slack split floor-half before and the rest after. A strided list of `(start, end)` block coordinates is then built on every axis of the padded volume (modules `Volumes`, `Indexer`).
- **Intensity normalisers** `normX` and `normY`. These are clip-and-rescale maps over reals, applied voxel by voxel (module `Normalize`).
- **Split partitioner**. It takes the already shuffled file list and two counts:
  - validation is the sorted first `kv` files;
  - test is the sorted `fileList[-kt:]`, with Python's slice rules, so `kt == 0` selects everything;
  - training is `sorted(set(files) - set(val) - set(test))`.

  The order used is Python's string order (modules `LexOrder`, `Partitioner`).
- **Per-subject body**:
  - the target path `pathX.replace("PET", "CT")` and the subject ids `basename(path)[3:6]` (module `PyStr`);
  - the split-dependent z-crop and the clamped block cut (module `Geometry`);
  - the cross product of the three coordinate lists in nested-loop order (module `Blocks`);
  - the sparse-patch rule `np.mean(cutX) > 1e-3 or np.mean(cutY) > 1e-3`, with the mean of an empty patch being NaN (module `Means`);
  - the counting loop and the `cube_cnt / total_num * 100` report (module `Subject`).
- **Save names**. Names have the form `folder + "X_" + id + "_%03d_%03d_%03d" + ".npy"` and its `Y_` twin. A decimal parser is proved to invert the formatting, and names are proved injective in the block origin (module `Naming`).

Modelling choices:

- Volumes are `seq<seq<seq<real>>>` carrying an explicit `Shape`. A volume with zero extent on one axis therefore keeps its other extents, as an array does; the test split produces exactly such volumes.
- Python's `//` equals Dafny's `/` for the positive divisors involved: the block size and the stride. So the floor division of a negative `len_dim - block_size` is modelled exactly. The block size and stride must be positive, because the source divides by them.
- `np.mean` is the real-valued sum over the voxel count. `Mean` returns `None` for an empty patch. Every comparison with that NaN is false, which `MeanExceeds` reproduces.
- The percentage is `None` when `total_num == 0`. This is the `ZeroDivisionError` the script raises at that point.

The model follows the code as written. Three points of that behaviour matter. The first two depart from what the code evidently aims at and are listed under "## Findings" with a corrected definition beside each. The third is a consequence of the code whose intent the code does not settle, so the model records it without a corrected version:

1. **Padding.** The padded length is `dim + dim % B`, not the next multiple of `B`. See `Indexer.PaddedLengthNotMultiple` and the corrected `Indexer.AxisPadToMultiple`.
2. **Test count of zero.** `fileList[-0:]` is the whole list, so the test list takes every file and training is left empty. See `Partitioner.ZeroTestCountEmptiesTrain` and the corrected `Partitioner.PartitionIntended`.
3. **Test-split crop.** The crop `data[:, :, Z:]` keeps no slice at all. The test split therefore has no z block and saves no patch, and the percentage divides by zero (`Subject.TestSplitHasNoCandidates`, `Subject.ProcessSubject`).

Neither normaliser is idempotent on values already in `[0, 1]`, so normalising a volume twice can change it (`Normalize.NormalizersNotIdempotent`).

## Model

| member | source | states |
|---|---|---|
| Indexer.AxisPad | data_preprocess.py:18-21 | the before and after widths of one axis add up to `dim % B`, and `after` is `before` or `before + 1` |
| Indexer.PaddedLength | data_preprocess.py:19-22 | a padded axis has length `dim + dim % B`, at least `dim` and less than `dim + B` |
| Indexer.PadVolume | data_preprocess.py:17-22 | `np.pad` with those widths: the padded shape is `dim + dim % B` per axis, original voxel `(i, j, k)` sits at `(i + before_x, j + before_y, k + before_z)`, and every other voxel is 0 |
| Indexer.PaddedAt | data_preprocess.py:17-22 | for a volume of shape `(x, y, z)`, voxel `(i, j, k)` lies in the padded volume at `(i + before_x, j + before_y, k + before_z)` and keeps its value there |
| Indexer.Embed | data_preprocess.py:22 | constant zero padding around a box: the shape is the target shape, originals are shifted by the offsets, and everything outside the box is 0 |
| Indexer.CoordCount | data_preprocess.py:27-28 | `range(max_start + 1)` with floor division has no entry when the padded axis is shorter than `B`, and `(padded - B) // stride + 1` entries otherwise |
| Indexer.EndsInside | data_preprocess.py:27-29 | every listed block `k` ends inside the padded axis: `k * stride + B <= padded` |
| Indexer.AxisCoords | data_preprocess.py:25-30 | one axis's list is empty when `padded < B`, otherwise has `(padded - B) // stride + 1` entries; entry `k` starts at `k * stride`, spans `B` and ends inside the padded axis |
| Indexer.AxisCoordsStrictlyIncreasing | data_preprocess.py:28-29 | starts strictly increase along the list, by exactly `stride` between neighbours |
| Indexer.BuildAxisCoords | data_preprocess.py:26-30 | the appending loop over `range(max_start + 1)` builds exactly that list, entry `k` being `(k * stride, k * stride + B)` |
| Indexer.CreateIndex3D | data_preprocess.py:14-32 | `create_index_3d` returns the padded volume and, for each axis, exactly the coordinate list of that padded axis (so every block spans `B` and ends inside the padded volume) |
| Indexer.SameShapeSameCoords | data_preprocess.py:149-150 | two volumes of one shape get identical coordinate lists and padded shapes |
| Indexer.PaddedLengthNotMultiple | data_preprocess.py:19-20 | as written, an axis of 130 voxels with `B = 128` is padded to 132, which is not a multiple of 128 |
| Indexer.AxisPadToMultiple | data_preprocess.py:19-20 | the corrected padding reaches a multiple of `B`, adds less than `B`, reaches no smaller multiple, and keeps the balanced split |
| Indexer.ModUnique | data_preprocess.py:19 | floor division and remainder are the unique quotient/remainder pair with the remainder in `[0, B)` |
| Indexer.ModShift | data_preprocess.py:19-20 | adding the corrected slack reaches a multiple of `B`, and no smaller addition does |
| Indexer.PadAgreement | data_preprocess.py:19-20 | the written and the corrected paddings agree exactly when `dim % B == 0` or `2 * (dim % B) == B` |
| Normalize.NormX | data_preprocess.py:34-38 | negatives map to 0, `[0, 3000]` maps to `x / 6000` (at most 0.5), values above 3000 map to exactly 1, and every output lies in `[0, 1]` |
| Normalize.NormY | data_preprocess.py:40-44 | values at most -1000 map to 0, values at least 3000 map to 1, values between map to `(x + 1000) / 4000`, and every output lies in `[0, 1]` |
| Normalize.NormXMonotone | data_preprocess.py:34-38 | `normX` is monotone non-decreasing |
| Normalize.NormYMonotone | data_preprocess.py:40-44 | `normY` is monotone non-decreasing |
| Normalize.NormXGap | data_preprocess.py:35-37 | `normX` never yields a value strictly between 0.5 and 1, and yields 1 exactly for inputs above 3000 |
| Normalize.NormYInjectiveInRange | data_preprocess.py:41-43 | on `[-1000, 3000]`, `normY` maps distinct intensities to distinct values |
| Normalize.NormalizersNotIdempotent | data_preprocess.py:34-44 | applying either normaliser a second time changes an in-range value (`normX`: 0.5; `normY`: 0.25) |
| Normalize.NormXVolume | data_preprocess.py:34-38 | the volume form keeps the shape, normalises every voxel, and leaves every voxel in `[0, 1]` |
| Normalize.NormYVolume | data_preprocess.py:40-44 | the volume form keeps the shape, normalises every voxel, and leaves every voxel in `[0, 1]` |
| LexOrder.LexLeTotal | data_preprocess.py:80 | any two paths are comparable in the string order `list.sort` uses |
| LexOrder.LexLeAntisymmetric | data_preprocess.py:80 | two paths that are each at most the other are equal |
| LexOrder.LexLeTransitive | data_preprocess.py:80 | the string order is transitive |
| LexOrder.LexLeIffFirstDifference | data_preprocess.py:80 | the string order `list.sort` uses is Python's `<=` on `str`: `a` is a prefix of `b`, or at the first position where they differ `a` has the smaller code point |
| LexOrder.Insert | data_preprocess.py:80 | insertion into a sorted list stays sorted, adds exactly the one element, and grows the length by one |
| LexOrder.Sort | data_preprocess.py:80 | `list.sort()` yields a sorted permutation of its input |
| LexOrder.SortedUnique | data_preprocess.py:80 | two sorted lists with the same multiset are equal, so any sort gives the same result |
| LexOrder.InsertNew | data_preprocess.py:83 | inserting into a strictly sorted list keeps it strictly sorted and adds exactly that element to its set |
| LexOrder.SortedSet | data_preprocess.py:83-84 | `sorted(list(set(s)))` is strictly sorted, with exactly the elements of `s` |
| LexOrder.StrictlySortedUnique | data_preprocess.py:83-84 | a strictly sorted list is determined by its set of elements |
| Partitioner.SliceTo | data_preprocess.py:79-80 | `s[:i]` is a prefix of `s`, of length `min(i, n)` for `i >= 0` and of length `n - min(-i, n)` for negative `i` |
| Partitioner.SliceFrom | data_preprocess.py:81-82 | `s[i:]` is a suffix of `s`, of length `min(-i, n)` for negative `i` and of length `n - min(i, n)` otherwise |
| Partitioner.SliceToFromSplit | data_preprocess.py:79-82 | `s[:i] + s[i:] == s` for every bound, negative or out of range |
| PySlice.SliceBound | data_preprocess.py:79-81 | Python's slice-bound rule: an in-range bound is kept, a negative bound `-k` with `k <= n` becomes `n - k`, and bounds beyond either end clamp to 0 or `n` |
| Partitioner.Without | data_preprocess.py:83 | set difference on the list: the result's elements are the input's minus the excluded set |
| Partitioner.TrainList | data_preprocess.py:83-84 | the training list is strictly sorted and holds exactly the files in neither validation nor test |
| Partitioner.TrainCovers | data_preprocess.py:83 | training files are drawn from the file list and avoid validation and test, and the three lists together cover the file list |
| Partitioner.ValList | data_preprocess.py:79-80 | validation is a sorted permutation of the first `min(kv, n)` files |
| Partitioner.TestList | data_preprocess.py:81-82 | test is a sorted permutation of the last `kt` files when `0 < kt <= n`, and of the whole list when `kt == 0` or `kt >= n` |
| Partitioner.Partition | data_preprocess.py:79-84 | validation and test are the sorted slices; training is strictly sorted and disjoint from both; and the union of the three is the set of all files |
| Partitioner.ZeroTestCountEmptiesTrain | data_preprocess.py:81 | with a test count of 0, the test list is a permutation of all files and the training list is empty |
| Partitioner.PartitionIntended | data_preprocess.py:81 | the corrected partition takes exactly `min(kt, n)` test files (none when `kt == 0`) and keeps the other guarantees |
| Partitioner.PartitionAgreesForPositiveTestCount | data_preprocess.py:81 | the written and corrected partitions are equal for every positive test count and differ for a count of 0 on a non-empty list |
| Partitioner.SameListsForPositiveTestCount | data_preprocess.py:79-84 | for a positive test count, the written and corrected partitions are equal |
| Partitioner.SameValList | data_preprocess.py:79-80 | `sorted(fileList[:kv])` is the sorted prefix of `min(kv, n)` files |
| Partitioner.SameTestList | data_preprocess.py:81-82 | for a positive count, `sorted(fileList[-kt:])` is the sorted suffix of `min(kt, n)` files |
| Partitioner.ValTestOverlapIffCountsExceed | data_preprocess.py:79-82 | for distinct files and in-range counts, validation and test share a file exactly when `kv + kt > n` |
| Partitioner.SliceOverlap | data_preprocess.py:79-81 | of a list of distinct files, the prefix `[:kv]` and the suffix `[-kt:]` meet exactly when `kv + kt > n` |
| Partitioner.ElemsOfPermutation | data_preprocess.py:80 | sorting does not change which files a list holds |
| PyStr.ReplaceAll | data_preprocess.py:135 | `str.replace` leaves a string without the pattern unchanged, and does not lengthen it when the replacement is no longer than the pattern |
| PyStr.TargetPath | data_preprocess.py:135 | the target path of a path without "PET" is the path itself, and is never longer than the path |
| PyStr.TargetPathSplit | data_preprocess.py:135 | `replace("PET", "CT")` turns the first "PET" into "CT", keeps everything before it, and continues on the rest of the path |
| PyStr.TargetPathHasNoPET | data_preprocess.py:135 | after `replace("PET", "CT")` no "PET" remains in the target path |
| PyStr.Basename | data_preprocess.py:136-137 | `os.path.basename` is the longest '/'-free suffix: it contains no '/', is a suffix, and is preceded by '/' when shorter than the path |
| PyStr.Slice | data_preprocess.py:136-137 | `s[lo:hi]` clamps both bounds: it is the plain slice when in range, `s[lo:]` when only `hi` runs past the end, and empty when `hi <= lo` or `lo >= len(s)` |
| PyStr.SubjectId | data_preprocess.py:136-137 | the subject id is at most 3 characters without '/': exactly `basename[3:6]` for basenames of 6 or more characters, `basename[3:]` for 4 or 5, and empty for 3 or fewer |
| Naming.Decimal | data_preprocess.py:163-165 | `"{:d}"` writes at least one digit, at most 1/2/3 digits below 10/100/1000 and at least 2/3 from 10/100 on, `"0"` for zero, and no leading zero otherwise |
| Naming.DecimalRoundTrip | data_preprocess.py:163-165 | parsing the decimal digits of `n` gives back `n` |
| Naming.LeadingZeros | data_preprocess.py:163-165 | leading zeros do not change the parsed value |
| Naming.Format03 | data_preprocess.py:163-165 | `"{:03d}"` yields digits only, at least 3 of them, exactly 3 below 1000, the plain decimal digits from 100 on, and parses back to `n` |
| Naming.Format03Injective | data_preprocess.py:163-165 | distinct coordinates are formatted differently |
| Naming.CoordSuffix | data_preprocess.py:163-165 | the `_%03d_%03d_%03d` tail starts with '_', has at least 12 characters, and exactly 12 for coordinates below 1000 |
| Naming.SaveName | data_preprocess.py:162-165 | every save name starts with `folder + tag + "_" + id`, ends with the shared `_%03d_%03d_%03d.npy` tail of its block origin, and consists of exactly those two parts |
| Naming.SplitAtSeparator | data_preprocess.py:163-165 | a digit field followed by "_" splits back unambiguously |
| Naming.CoordSuffixFields | data_preprocess.py:163-165 | below 1000, the tail is '_', three digits of `start_x`, '_', three digits of `start_y`, '_', three digits of `start_z`, in that order, and each field parses back to its coordinate |
| Naming.CoordSuffixInjective | data_preprocess.py:163-165 | the `_%03d_%03d_%03d` tail determines the block origin |
| Naming.SaveNameInjective | data_preprocess.py:162-165 | within one folder, tag and subject, two names are equal exactly when their block origins are equal |
| Geometry.DropZ | data_preprocess.py:141-145 | `data[:, :, f:]` keeps x and y, has `Z - f` slices, and slice `k` is the original slice `k + f` |
| Geometry.CropZ | data_preprocess.py:140-145 | outside the test split, `Z - Z // 2` slices are kept (the upper half); in the test split, no slice is kept |
| Geometry.SliceLength | data_preprocess.py:167-168 | a slice `[lo:hi]` of an axis of length `n` never reaches past `n`, starts at `lo` when non-empty, and has `hi - lo` elements when `lo <= hi <= n` |
| Geometry.Cut | data_preprocess.py:167-168 | the cut has the clamped slice lengths as its shape, and its voxel `(i, j, k)` is the volume's voxel at the block origin plus `(i, j, k)`, also for a block that reaches past the volume; for a block inside the volume the shape is the span lengths |
| Blocks.Column | data_preprocess.py:161 | the innermost loop visits one block per z span, in order |
| Blocks.Row | data_preprocess.py:160-161 | the two inner loops visit `len(listCordY) * len(listCordZ)` blocks |
| Blocks.Triples | data_preprocess.py:159-179 | the three nested loops visit `len(listCordX) * len(listCordY) * len(listCordZ)` blocks, the script's `total_num` |
| Blocks.TriplesWithoutZ | data_preprocess.py:159-161 | with an empty z list, the loops visit no block |
| Blocks.TriplesMembers | data_preprocess.py:159-161 | a block is visited exactly when each of its spans is listed on its axis |
| Blocks.TriplesDistinct | data_preprocess.py:159-161 | if each list's starts are distinct, no two visited blocks share an origin |
| Blocks.AxisCoordsDistinctStarts | data_preprocess.py:27-29 | an axis's coordinate list never repeats a start |
| Means.Mean | data_preprocess.py:174 | `np.mean` is undefined (NaN) exactly for an empty patch; otherwise the mean times the voxel count is the voxel sum |
| Means.MeanExceeds | data_preprocess.py:174 | `np.mean(cut) > t` holds exactly when the patch is non-empty and its voxel sum exceeds `t` times its voxel count |
| Means.MeanCompare | data_preprocess.py:174 | for a positive count, a quotient exceeds `t` exactly when the dividend exceeds `t` times the count |
| Means.Kept | data_preprocess.py:169-177 | a pair is saved exactly when the split is the test split, or either patch is non-empty with a voxel sum above `1e-3` times its voxel count |
| Means.Sum3Bound | data_preprocess.py:174 | a patch whose voxels are all at most `1e-3` sums to at most count times `1e-3` |
| Means.Sum3Above | data_preprocess.py:174 | a non-empty patch whose voxels all exceed `1e-3` sums to more than count times `1e-3` |
| Means.DarkPatchMean | data_preprocess.py:174 | a patch whose voxels are all at most `1e-3` fails `np.mean(cut) > 1e-3` (an empty patch fails too, its mean being NaN) |
| Means.BrightPatchMean | data_preprocess.py:174 | a non-empty patch whose voxels all exceed `1e-3` passes `np.mean(cut) > 1e-3` |
| Means.KeptRule | data_preprocess.py:169-177 | test-split pairs are always kept; outside it, a pair whose patches are both dark is dropped, and a pair whose non-empty X patch is bright is kept |
| Subject.PairAt | data_preprocess.py:162-168 | the two names of a block share the coordinate tail of its origin, and both cuts are well-formed volumes |
| Subject.SavedPairs | data_preprocess.py:159-177 | the pairs saved along a walk are at most as many as the blocks walked (exactly as many in the test split); each saved pair is a kept block's pair; and every kept block's pair is saved |
| Subject.SavedPairsStep | data_preprocess.py:169-177 | one more block appends its pair exactly when the keep rule admits it |
| Subject.SavedOriginsStayDistinct | data_preprocess.py:159-177 | walking blocks with distinct origins saves pairs with distinct origins |
| Subject.NamesFromOrigins | data_preprocess.py:162-165 | pairs of one subject with distinct origins have distinct X names and distinct Y names |
| Subject.SavedNamesDistinct | data_preprocess.py:162-177 | if the walked blocks have distinct origins, no saved file name repeats, so no `np.save` overwrites another |
| Subject.SaveColumn | data_preprocess.py:161-177 | the innermost loop appends exactly the kept pairs of its column, and `cube_cnt` counts every saved pair |
| Subject.SaveRow | data_preprocess.py:160-177 | the middle loop appends exactly the kept pairs of its row, and `cube_cnt` counts every saved pair |
| Subject.SaveBlocks | data_preprocess.py:157-177 | the three nested loops save exactly the kept pairs of all blocks in loop order, and `cube_cnt` equals their number |
| Subject.PercentBounds | data_preprocess.py:181 | when `cube_cnt <= total_num` and `total_num > 0`, the reported percentage lies in `[0, 100]` |
| Subject.PrepareX | data_preprocess.py:140-151 | the prepared X volume is valid and has the cropped, padded shape: `dim + dim % B` on x and y, and on z the padded length of the kept upper half (0 in the test split); its voxels are stated by `Subject.PrepareXVoxels` and `Subject.PrepareXZeros` |
| Subject.PrepareXVoxels | data_preprocess.py:140-149 | outside the test split, original voxel `(i, j, k)` of the kept upper half reappears in `dataPadX` at `(i + before_x, j + before_y, k + before_z)` with the value `normX(dataX[i][j][k + Z // 2])` |
| Subject.PrepareXZeros | data_preprocess.py:140-149 | every voxel of `dataPadX` outside the box of shifted original voxels is 0 |
| Subject.CroppedPaddedShape | data_preprocess.py:140-151 | padding the shape left by the split's z-crop gives that prepared shape |
| Subject.IndexY | data_preprocess.py:140-150 | the Y index has the prepared shape, its three lists are the coordinate lists of that padded shape, and the test split has no z block; its voxels are stated by `Subject.IndexYVoxels` and `Subject.IndexYZeros` |
| Subject.IndexYVoxels | data_preprocess.py:140-150 | outside the test split, original voxel `(i, j, k)` of the kept upper half reappears in `dataPadY` at `(i + before_x, j + before_y, k + before_z)` with the value `normY(dataY[i][j][k + Z // 2])` |
| Subject.IndexYZeros | data_preprocess.py:140-150 | every voxel of `dataPadY` outside the box of shifted original voxels is 0 |
| Subject.Candidates | data_preprocess.py:149-179 | the candidates are `total_num` blocks, and a block is a candidate exactly when each of its spans is in the Y index's list for its axis |
| Subject.TestSplitHasNoCandidates | data_preprocess.py:143-145 | after the test-split crop, the z list is empty and no block is a candidate |
| Subject.CandidatesDistinct | data_preprocess.py:149-161 | the candidate blocks of a subject have pairwise distinct origins |
| Subject.PreparedShapesAgree | data_preprocess.py:140-150 | images of one shape give padded volumes of one shape |
| Subject.CandidateFits | data_preprocess.py:150-161 | every candidate block spans `B` on each axis and lies inside the padded Y volume |
| Subject.SameShapeFullPatches | data_preprocess.py:149-168 | when the two images have one shape, both cuts of every candidate are exactly `B x B x B` |
| Subject.MakeJob | data_preprocess.py:135-137 | the X id is `basename(pathX)[3:6]` and the Y id is the same slice of the replaced path |
| Subject.ProcessSubject | data_preprocess.py:131-181 | the per-subject body: `total_num` is the number of candidates; `cube_cnt` is the number saved and at most `total_num`; the percentage is absent exactly when `total_num == 0` and is otherwise `cube_cnt / total_num * 100`, which lies in `[0, 100]`; the test split saves nothing and divides by zero; and the saved pairs are exactly the kept candidates in loop order |
| Subject.SubjectOutput | data_preprocess.py:159-177 | each saved pair is a kept candidate, cut from both padded volumes and named after its origin; every kept candidate is saved; no file name repeats; and for same-shaped images every patch is `B x B x B` |

## Left out

- File and library I/O is not modelled: `nib.load`, `np.save`, `glob`, `os.makedirs` and `os.path.exists`. Loaded volumes and file lists are inputs, and saved pairs are the result.
- The `print` calls and their formatting are not modelled; only the percentage value is kept.
- `np.random.seed` and `np.random.shuffle` are foreign randomness. The partition takes the shuffled list as its input.
- `int(len(fileList) * ratio)` mixes floats into the counts. The partition takes the two counts as naturals.
- The hard-coded list overrides at lines 93-98 and the loop that runs only over the test package (line 122) are script configuration. The partition function and the per-subject body are modelled for any split.
- `.astype(np.float32)` and the floating-point rounding of `np.mean` and of the normalisers are not modelled; all arithmetic is on reals. Non-finite inputs (NaN or infinite voxels) are not modelled.
- `save_each_nifty` and the `multiprocessing` import are not modelled: the function is a stub returning a process id.
- model.py is not part of this model. It only instantiates network layers of a library this model cannot see.
- The per-subject body stops at the `ZeroDivisionError` of line 181. It reports `None` instead of raising, and the loop over further subjects is not modelled.
- Means.Sum3Bound: the bound is stated only for the script's threshold `1e-3`, not for an arbitrary threshold. This keeps the proof linear in the arithmetic.
- Means.Sum3Above: stated only for the threshold `1e-3`, for the same reason.
- Means.KeptRule: the rule is proved exactly through `Kept`, but its two sufficient conditions (all voxels dark, or all voxels of the X patch bright) are special cases, not a characterisation of the mean.
- PyStr.ReplaceAll: states only that a string without the pattern is unchanged. What the replacement does is stated for the one pattern the script uses: PyStr.TargetPathSplit says where "CT" goes, and PyStr.TargetPathHasNoPET that no "PET" is left.

## Findings

| source | as written | input that shows it | evidently intended | confidence | as-written member | corrected member |
|---|---|---|---|---|---|---|
| data_preprocess.py:19-20 | each axis is padded by `dim - dim // B * B`, so the padded length is `dim + dim % B` | `dim = 130`, `B = 128`: padded to 132, which is not a multiple of 128 | pad up to the next multiple of `B` (slack `(B - dim % B) % B`), so the blocks tile the padded axis | medium, not executed | Indexer.PaddedLengthNotMultiple | Indexer.AxisPadToMultiple |
| data_preprocess.py:81 | `fileList[-int(len(fileList) * testRatio):]` with a count of 0 is `fileList[-0:]`, the whole list | 9 files and `testRatio = 0.1`: the count is 0, every file goes to test, and training is empty | take the last `kt` files, none when `kt == 0` | high, not executed | Partitioner.ZeroTestCountEmptiesTrain | Partitioner.PartitionIntended |

The pipeline in `Subject` follows the code as written, and so uses `Indexer.AxisPad`. The corrected definitions stand beside it. `Indexer.PadAgreement` and `Partitioner.PartitionAgreesForPositiveTestCount` state exactly when the written and corrected versions coincide.

=== FILE: blocks.dfy ===
/** The candidate blocks of one subject: the cross product of the three
    coordinate lists, in the order of the three nested loops (x outermost,
    z innermost). */
module Blocks {
  import opened Volumes
  import opened Indexer
  import opened Geometry

  /** The innermost loop: the blocks at fixed x and y spans, one per z span. */
  function Column(x: Span, y: Span, zs: seq<Span>): (ts: seq<Triple>)
    ensures |ts| == |zs|
    ensures forall k :: 0 <= k < |zs| ==> ts[k] == Triple(x, y, zs[k])
  {
    seq(|zs|, k requires 0 <= k < |zs| => Triple(x, y, zs[k]))
  }

  /** The two inner loops: the blocks at a fixed x span. */
  function Row(x: Span, ys: seq<Span>, zs: seq<Span>): (ts: seq<Triple>)
    ensures |ts| == |ys| * |zs|
    decreases |ys|
  {
    if |ys| == 0 then []
    else
      CountStep(|ys|, |ys| - 1, |zs|);
      Row(x, ys[..|ys| - 1], zs) + Column(x, ys[|ys| - 1], zs)
  }

  /** All three loops. They visit `len(listCordX) * len(listCordY) *
      len(listCordZ)` blocks, the script's `total_num`. */
  function Triples(xs: seq<Span>, ys: seq<Span>, zs: seq<Span>): (ts: seq<Triple>)
    ensures |ts| == |xs| * |ys| * |zs|
    decreases |xs|
  {
    if |xs| == 0 then []
    else
      CountStep(|xs|, |xs| - 1, |ys| * |zs|);
      MulAssoc(|xs|, |ys|, |zs|);
      MulAssoc(|xs| - 1, |ys|, |zs|);
      Triples(xs[..|xs| - 1], ys, zs) + Row(xs[|xs| - 1], ys, zs)
  }

  /** One more pass of the innermost loop appends one block. */
  lemma ColumnStep(x: Span, y: Span, zs: seq<Span>, c: nat)
    requires c < |zs|
    ensures Column(x, y, zs[..c + 1]) == Column(x, y, zs[..c]) + [Triple(x, y, zs[c])]
  {
  }

  /** One more pass of the middle loop appends one column. */
  lemma RowStep(x: Span, ys: seq<Span>, zs: seq<Span>, b: nat)
    requires b < |ys|
    ensures Row(x, ys[..b + 1], zs) == Row(x, ys[..b], zs) + Column(x, ys[b], zs)
  {
    assert ys[..b + 1][..b] == ys[..b];
  }

  /** One more pass of the outer loop appends one row. */
  lemma TriplesStep(xs: seq<Span>, ys: seq<Span>, zs: seq<Span>, a: nat)
    requires a < |xs|
    ensures Triples(xs[..a + 1], ys, zs) == Triples(xs[..a], ys, zs) + Row(xs[a], ys, zs)
  {
    assert xs[..a + 1][..a] == xs[..a];
  }

  /** With no z span there is no block at all. */
  lemma {:induction false} TriplesWithoutZ(xs: seq<Span>, ys: seq<Span>)
    ensures Triples(xs, ys, []) == []
    decreases |xs|
  {
    if |xs| > 0 {
      TriplesWithoutZ(xs[..|xs| - 1], ys);
    }
  }

  lemma {:induction false} RowMembers(x: Span, ys: seq<Span>, zs: seq<Span>)
    ensures forall t :: t in Row(x, ys, zs) <==> t.x == x && t.y in ys && t.z in zs
    decreases |ys|
  {
    if |ys| > 0 {
      var pre := ys[..|ys| - 1];
      RowMembers(x, pre, zs);
      assert ys == pre + [ys[|ys| - 1]];
      forall t ensures t in Row(x, ys, zs) <==> t.x == x && t.y in ys && t.z in zs {
        if t in Column(x, ys[|ys| - 1], zs) {
          var k :| 0 <= k < |zs| && Column(x, ys[|ys| - 1], zs)[k] == t;
        }
        if t.x == x && t.y == ys[|ys| - 1] && t.z in zs {
          var k :| 0 <= k < |zs| && zs[k] == t.z;
          assert Column(x, ys[|ys| - 1], zs)[k] == t;
        }
      }
    }
  }

  /** A block is a candidate exactly when each of its spans is listed on
      its axis. */
  lemma {:induction false} TriplesMembers(xs: seq<Span>, ys: seq<Span>, zs: seq<Span>)
    ensures forall t :: t in Triples(xs, ys, zs) <==> t.x in xs && t.y in ys && t.z in zs
    decreases |xs|
  {
    if |xs| > 0 {
      var pre := xs[..|xs| - 1];
      TriplesMembers(pre, ys, zs);
      RowMembers(xs[|xs| - 1], ys, zs);
      assert xs == pre + [xs[|xs| - 1]];
    }
  }

  /** The block origin `(start_x, start_y, start_z)` that names a patch. */
  function Origin(t: Triple): (nat, nat, nat) {
    (t.x.start, t.y.start, t.z.start)
  }

  /** No two spans of a list start at the same voxel. */
  ghost predicate DistinctStarts(s: seq<Span>) {
    forall i, j :: 0 <= i < j < |s| ==> s[i].start != s[j].start
  }

  /** No two blocks of a list share an origin. */
  ghost predicate DistinctOrigins(ts: seq<Triple>) {
    forall i, j :: 0 <= i < j < |ts| ==> Origin(ts[i]) != Origin(ts[j])
  }

  /** Joining two origin-distinct lists that share no origin keeps origins distinct. */
  lemma AppendDistinct(a: seq<Triple>, b: seq<Triple>)
    requires DistinctOrigins(a) && DistinctOrigins(b)
    requires forall s, t :: s in a && t in b ==> Origin(s) != Origin(t)
    ensures DistinctOrigins(a + b)
  {
    forall i, j | 0 <= i < j < |a + b| ensures Origin((a + b)[i]) != Origin((a + b)[j]) {
      if j < |a| {
        assert (a + b)[i] == a[i] && (a + b)[j] == a[j];
      } else if i < |a| {
        assert (a + b)[i] in a && (a + b)[j] in b;
      } else {
        assert (a + b)[i] == b[i - |a|] && (a + b)[j] == b[j - |a|];
      }
    }
  }

  lemma {:induction false} RowDistinct(x: Span, ys: seq<Span>, zs: seq<Span>)
    requires DistinctStarts(ys) && DistinctStarts(zs)
    ensures DistinctOrigins(Row(x, ys, zs))
    decreases |ys|
  {
    if |ys| > 0 {
      var pre, y := ys[..|ys| - 1], ys[|ys| - 1];
      RowDistinct(x, pre, zs);
      RowMembers(x, pre, zs);
      forall s, t | s in Row(x, pre, zs) && t in Column(x, y, zs) ensures Origin(s) != Origin(t) {
        var i :| 0 <= i < |pre| && pre[i] == s.y;
        assert ys[i] == s.y;
      }
      AppendDistinct(Row(x, pre, zs), Column(x, y, zs));
    }
  }

  /** Blocks built from lists with distinct starts have distinct origins, so
      no two candidates would be saved under the same name. */
  lemma {:induction false} TriplesDistinct(xs: seq<Span>, ys: seq<Span>, zs: seq<Span>)
    requires DistinctStarts(xs) && DistinctStarts(ys) && DistinctStarts(zs)
    ensures DistinctOrigins(Triples(xs, ys, zs))
    decreases |xs|
  {
    if |xs| > 0 {
      var pre, x := xs[..|xs| - 1], xs[|xs| - 1];
      TriplesDistinct(pre, ys, zs);
      TriplesMembers(pre, ys, zs);
      RowMembers(x, ys, zs);
      RowDistinct(x, ys, zs);
      forall s, t | s in Triples(pre, ys, zs) && t in Row(x, ys, zs) ensures Origin(s) != Origin(t) {
        var i :| 0 <= i < |pre| && pre[i] == s.x;
        assert xs[i] == s.x;
      }
      AppendDistinct(Triples(pre, ys, zs), Row(x, ys, zs));
    }
  }

  /** The coordinate lists of `create_index_3d` have distinct starts. */
  lemma AxisCoordsDistinctStarts(padded: nat, b: nat, stride: nat)
    requires stride > 0
    ensures DistinctStarts(AxisCoords(padded, b, stride))
  {
    forall i, j | 0 <= i < j < |AxisCoords(padded, b, stride)|
      ensures AxisCoords(padded, b, stride)[i].start != AxisCoords(padded, b, stride)[j].start
    {
      AxisCoordsStrictlyIncreasing(padded, b, stride, i, j);
    }
  }
}

=== FILE: geometry.dfy ===
/** The array slicing of the per-subject loop: the z-crop that depends on
    the split, and the cut of one block out of a padded volume, both with
    Python's clamping of slice bounds. */
module Geometry {
  import opened Volumes
  import opened Indexer
  import opened PySlice

  /** One candidate block: a span along each axis. */
  datatype Triple = Triple(x: Span, y: Span, z: Span)

  /** Length of the slice `[lo:hi]` of an axis of length `n`. */
  function SliceLength(n: nat, lo: nat, hi: nat): (m: nat)
    ensures SliceBound(n, lo) + m <= n
    ensures m > 0 ==> SliceBound(n, lo) == lo
    ensures lo <= hi <= n ==> m == hi - lo
  {
    if SliceBound(n, hi) <= SliceBound(n, lo) then 0 else SliceBound(n, hi) - SliceBound(n, lo)
  }

  /** `data[:, :, from:]` for `from <= data.shape[2]`. */
  function DropZ(v: Volume, from: nat): (w: Volume)
    requires Valid(v) && from <= v.shape.z
    ensures Valid(w) && w.shape == Shape(v.shape.x, v.shape.y, v.shape.z - from)
    ensures forall i, j, k :: InBounds(w.shape, i, j, k) ==> w.voxels[i][j][k] == v.voxels[i][j][k + from]
  {
    Volume(Shape(v.shape.x, v.shape.y, v.shape.z - from),
      seq(v.shape.x, i requires 0 <= i < v.shape.x =>
        seq(v.shape.y, j requires 0 <= j < v.shape.y => v.voxels[i][j][from..])))
  }

  /** The z-crop of the per-subject loop: outside the test split the upper
      half `data[:, :, Z // 2:]` is kept; in the test split the slice
      `data[:, :, Z:]` keeps no slice at all. */
  function CropZ(v: Volume, isTest: bool): (w: Volume)
    requires Valid(v)
    ensures Valid(w) && w.shape.x == v.shape.x && w.shape.y == v.shape.y
    ensures !isTest ==> w.shape.z == v.shape.z - v.shape.z / 2
    ensures !isTest ==> forall i, j, k :: InBounds(w.shape, i, j, k) ==> w.voxels[i][j][k] == v.voxels[i][j][k + v.shape.z / 2]
    ensures isTest ==> w.shape.z == 0
  {
    DropZ(v, if isTest then v.shape.z else v.shape.z / 2)
  }

  /** The block lies inside a volume of shape `s`. */
  predicate Fits(t: Triple, s: Shape) {
    && t.x.start <= t.x.end <= s.x
    && t.y.start <= t.y.end <= s.y
    && t.z.start <= t.z.end <= s.z
  }

  /** `data[sx:ex, sy:ey, sz:ez]`: both bounds of each slice clamp to the
      axis, so a block that sticks out is cut short rather than rejected. */
  function Cut(v: Volume, t: Triple): (c: Volume)
    requires Valid(v)
    ensures Valid(c)
    ensures c.shape == Shape(SliceLength(v.shape.x, t.x.start, t.x.end),
                             SliceLength(v.shape.y, t.y.start, t.y.end),
                             SliceLength(v.shape.z, t.z.start, t.z.end))
    ensures Fits(t, v.shape) ==> c.shape == Shape(t.x.end - t.x.start, t.y.end - t.y.start, t.z.end - t.z.start)
    ensures forall i, j, k :: InBounds(c.shape, i, j, k) ==>
      c.voxels[i][j][k] == v.voxels[t.x.start + i][t.y.start + j][t.z.start + k]
  {
    var s := Shape(SliceLength(v.shape.x, t.x.start, t.x.end),
                   SliceLength(v.shape.y, t.y.start, t.y.end),
                   SliceLength(v.shape.z, t.z.start, t.z.end));
    var ox, oy, oz := SliceBound(v.shape.x, t.x.start), SliceBound(v.shape.y, t.y.start), SliceBound(v.shape.z, t.z.start);
    Volume(s,
      seq(s.x, i requires 0 <= i < s.x =>
        seq(s.y, j requires 0 <= j < s.y =>
          seq(s.z, k requires 0 <= k < s.z => v.voxels[ox + i][oy + j][oz + k]))))
  }
}

=== FILE: indexer.dfy ===
/** The block indexer of `create_index_3d`: per-axis zero padding of a volume
    and the strided list of (start, end) block coordinates along each axis of
    the padded volume. The arithmetic is the one the script performs, not the
    "pad to a multiple of the block size" it appears to aim at; the latter is
    defined at the end of the module for comparison. */
module Indexer {
  import opened Volumes

  /** Zero voxels added before and after one axis. */
  datatype PadWidth = PadWidth(before: nat, after: nat)

  /** One block along one axis: the half-open voxel range [start, end). */
  datatype Span = Span(start: nat, end: nat)

  /** The three coordinate lists and the padded volume returned by `create_index_3d`. */
  datatype Index = Index(xs: seq<Span>, ys: seq<Span>, zs: seq<Span>, padded: Volume)

  /** Padding of one axis of length `dim`: the slack `dim - dim // b * b`
      is split into a floor half before and the rest after. */
  function AxisPad(dim: nat, b: nat): (p: PadWidth)
    requires b > 0
    ensures p.before + p.after == dim % b
    ensures p.after == p.before || p.after == p.before + 1
  {
    var slack := dim - dim / b * b;
    PadWidth(slack / 2, slack - slack / 2)
  }

  /** Length of one axis after padding. */
  function PaddedLength(dim: nat, b: nat): (n: nat)
    requires b > 0
    ensures n == dim + dim % b
    ensures dim <= n < dim + b
  {
    var p := AxisPad(dim, b);
    p.before + dim + p.after
  }

  function PaddedShape(s: Shape, b: nat): (t: Shape)
    requires b > 0
  {
    Shape(PaddedLength(s.x, b), PaddedLength(s.y, b), PaddedLength(s.z, b))
  }

  /** Padded position `i` lies inside the original box on an axis whose
      `dim` original voxels start at `before`. */
  predicate Original(i: int, before: nat, dim: nat) {
    before <= i < before + dim
  }

  /** The voxel at padded position (i, j, k) when `v` sits at (ox, oy, oz):
      an original voxel inside the embedded box, zero outside it. */
  function EmbedAt(v: Volume, ox: nat, oy: nat, oz: nat, i: int, j: int, k: int): real
    requires Valid(v)
  {
    if Original(i, ox, v.shape.x) && Original(j, oy, v.shape.y) && Original(k, oz, v.shape.z)
    then v.voxels[i - ox][j - oy][k - oz]
    else 0.0
  }

  /** Places `v` inside a zero volume of shape `s` with its origin at
      (ox, oy, oz). */
  function Embed(v: Volume, s: Shape, ox: nat, oy: nat, oz: nat): (w: Volume)
    requires Valid(v)
    requires ox + v.shape.x <= s.x && oy + v.shape.y <= s.y && oz + v.shape.z <= s.z
    ensures Valid(w) && w.shape == s
    ensures forall i, j, k :: InBounds(v.shape, i, j, k) ==> w.voxels[i + ox][j + oy][k + oz] == v.voxels[i][j][k]
    ensures forall i, j, k ::
      (InBounds(s, i, j, k) && !(Original(i, ox, v.shape.x) && Original(j, oy, v.shape.y) && Original(k, oz, v.shape.z)))
      ==> w.voxels[i][j][k] == 0.0
  {
    EmbedValid(v, s, ox, oy, oz);
    EmbedInside(v, s, ox, oy, oz);
    EmbedOutside(v, s, ox, oy, oz);
    Volume(s, EmbedVoxels(v, s, ox, oy, oz))
  }

  /** The voxel grid of `Embed`, position by position. */
  function EmbedVoxels(v: Volume, s: Shape, ox: nat, oy: nat, oz: nat): seq<seq<seq<real>>>
    requires Valid(v)
  {
    seq(s.x, i requires 0 <= i < s.x =>
      seq(s.y, j requires 0 <= j < s.y =>
        seq(s.z, k requires 0 <= k < s.z => EmbedAt(v, ox, oy, oz, i, j, k))))
  }

  lemma EmbedValid(v: Volume, s: Shape, ox: nat, oy: nat, oz: nat)
    requires Valid(v)
    ensures Valid(Volume(s, EmbedVoxels(v, s, ox, oy, oz)))
  {
  }

  lemma EmbedInside(v: Volume, s: Shape, ox: nat, oy: nat, oz: nat)
    requires Valid(v)
    requires ox + v.shape.x <= s.x && oy + v.shape.y <= s.y && oz + v.shape.z <= s.z
    ensures forall i, j, k :: InBounds(v.shape, i, j, k) ==>
      EmbedVoxels(v, s, ox, oy, oz)[i + ox][j + oy][k + oz] == v.voxels[i][j][k]
  {
    var w := EmbedVoxels(v, s, ox, oy, oz);
    forall i, j, k | InBounds(v.shape, i, j, k)
      ensures w[i + ox][j + oy][k + oz] == v.voxels[i][j][k]
    {
      assert InBounds(s, i + ox, j + oy, k + oz);
      assert Original(i + ox, ox, v.shape.x) && Original(j + oy, oy, v.shape.y) && Original(k + oz, oz, v.shape.z);
    }
  }

  lemma EmbedOutside(v: Volume, s: Shape, ox: nat, oy: nat, oz: nat)
    requires Valid(v)
    ensures forall i, j, k ::
      (InBounds(s, i, j, k) && !(Original(i, ox, v.shape.x) && Original(j, oy, v.shape.y) && Original(k, oz, v.shape.z)))
      ==> EmbedVoxels(v, s, ox, oy, oz)[i][j][k] == 0.0
  {
  }

  /** `np.pad(data, pad_width, mode="constant")` with the widths of `AxisPad`:
      every original voxel moves by the before-widths and every other voxel
      of the padded volume is zero. */
  function PadVolume(v: Volume, b: nat): (w: Volume)
    requires b > 0 && Valid(v)
    ensures Valid(w)
    ensures w.shape == Shape(v.shape.x + v.shape.x % b, v.shape.y + v.shape.y % b, v.shape.z + v.shape.z % b)
    ensures forall i, j, k :: InBounds(v.shape, i, j, k) ==>
      w.voxels[i + AxisPad(v.shape.x, b).before][j + AxisPad(v.shape.y, b).before][k + AxisPad(v.shape.z, b).before]
        == v.voxels[i][j][k]
    ensures forall i, j, k ::
      (InBounds(w.shape, i, j, k)
       && !(Original(i, AxisPad(v.shape.x, b).before, v.shape.x)
            && Original(j, AxisPad(v.shape.y, b).before, v.shape.y)
            && Original(k, AxisPad(v.shape.z, b).before, v.shape.z)))
      ==> w.voxels[i][j][k] == 0.0
  {
    Embed(v, PaddedShape(v.shape, b), AxisPad(v.shape.x, b).before, AxisPad(v.shape.y, b).before, AxisPad(v.shape.z, b).before)
  }

  /** A voxel of `n` reappears in its padding, shifted by the before-widths. */
  lemma PaddedAt(n: Volume, x: nat, y: nat, z: nat, b: nat, i: int, j: int, k: int)
    requires b > 0 && Valid(n) && n.shape == Shape(x, y, z) && InBounds(n.shape, i, j, k)
    ensures InBounds(PadVolume(n, b).shape, i + AxisPad(x, b).before, j + AxisPad(y, b).before, k + AxisPad(z, b).before)
    ensures PadVolume(n, b).voxels[i + AxisPad(x, b).before][j + AxisPad(y, b).before][k + AxisPad(z, b).before]
            == n.voxels[i][j][k]
  {
    ShiftedInside(x, b, i);
    ShiftedInside(y, b, j);
    ShiftedInside(z, b, k);
    assert InBounds(n.shape, i, j, k);
  }

  /** Position `i` of an axis of length `dim`, shifted by the before-width,
      stays inside the padded axis. */
  lemma ShiftedInside(dim: nat, b: nat, i: int)
    requires b > 0 && 0 <= i < dim
    ensures 0 <= i + AxisPad(dim, b).before < PaddedLength(dim, b)
  {
    var p := AxisPad(dim, b);
    assert p.before <= dim % b;
  }

  /** `max_start + 1` entries of `range(max_start + 1)`, where
      `max_start = (len_dim - block_size) // stride` is a floor division
      (Dafny's division agrees with it for a positive divisor). */
  function CoordCount(padded: nat, b: nat, stride: nat): (n: nat)
    requires stride > 0
    ensures padded < b ==> n == 0
    ensures padded >= b ==> n == (padded - b) / stride + 1
  {
    var maxStart := (padded - b) / stride;
    if maxStart + 1 <= 0 then 0 else maxStart + 1
  }

  /** Every listed block ends inside the padded axis. */
  lemma EndsInside(k: nat, padded: nat, b: nat, stride: nat)
    requires stride > 0 && padded >= b
    requires k < (padded - b) / stride + 1
    ensures k * stride + b <= padded
  {
    var q := (padded - b) / stride;
    assert k <= q;
    assert k * stride <= q * stride;
    assert q * stride <= padded - b;
  }

  /** The coordinate list of one axis of length `padded`: entry `k` is
      `(k * stride, k * stride + b)`. */
  function AxisCoords(padded: nat, b: nat, stride: nat): (cs: seq<Span>)
    requires stride > 0
    ensures padded < b ==> cs == []
    ensures padded >= b ==> |cs| == (padded - b) / stride + 1
    ensures forall k :: 0 <= k < |cs| ==> cs[k].start == k * stride && cs[k].end - cs[k].start == b
    ensures forall k :: 0 <= k < |cs| ==> cs[k].end <= padded
  {
    var cs := seq(CoordCount(padded, b, stride), k requires 0 <= k => Span(k * stride, k * stride + b));
    assert forall k :: 0 <= k < |cs| ==> cs[k].end <= padded by {
      forall k | 0 <= k < |cs| ensures cs[k].end <= padded {
        EndsInside(k, padded, b, stride);
      }
    }
    cs
  }

  /** Starts of consecutive blocks differ by exactly `stride`, so the list is
      strictly increasing and no two blocks share a start. */
  lemma AxisCoordsStrictlyIncreasing(padded: nat, b: nat, stride: nat, i: nat, j: nat)
    requires stride > 0
    requires i < j < |AxisCoords(padded, b, stride)|
    ensures AxisCoords(padded, b, stride)[i].start < AxisCoords(padded, b, stride)[j].start
    ensures j == i + 1 ==> AxisCoords(padded, b, stride)[j].start == AxisCoords(padded, b, stride)[i].start + stride
  {
    var cs := AxisCoords(padded, b, stride);
    MulSplit(i, j - i, stride);
    MulAtLeast(j - i, stride);
    assert cs[j].start == cs[i].start + (j - i) * stride;
  }

  lemma MulSplit(a: int, d: int, s: int)
    ensures (a + d) * s == a * s + d * s
  {
  }

  /** The loop of `create_index_3d` that fills `list_dim`, with the invariants
      that tie it to `AxisCoords`. */
  method BuildAxisCoords(padded: nat, b: nat, stride: nat) returns (listDim: seq<Span>)
    requires stride > 0
    ensures listDim == AxisCoords(padded, b, stride)
    ensures forall k :: 0 <= k < |listDim| ==> listDim[k] == Span(k * stride, k * stride + b)
  {
    listDim := [];
    var maxStart := (padded - b) / stride;
    var idx := 0;
    ghost var cs := AxisCoords(padded, b, stride);
    while idx < maxStart + 1
      invariant 0 <= idx <= |cs|
      invariant idx == |cs| <==> idx >= maxStart + 1
      invariant listDim == cs[..idx]
    {
      listDim := listDim + [Span(idx * stride, idx * stride + b)];
      idx := idx + 1;
    }
    assert cs[..idx] == cs;
  }

  /** `create_index_3d(data, block_size, stride)`: the padded volume and the
      coordinate lists of its three axes. */
  function CreateIndex3D(v: Volume, b: nat, stride: nat): (r: Index)
    requires b > 0 && stride > 0 && Valid(v)
    ensures Valid(r.padded) && r.padded == PadVolume(v, b)
    ensures r.xs == AxisCoords(r.padded.shape.x, b, stride)
    ensures r.ys == AxisCoords(r.padded.shape.y, b, stride)
    ensures r.zs == AxisCoords(r.padded.shape.z, b, stride)
    ensures forall s :: s in r.xs ==> s.end - s.start == b && s.end <= r.padded.shape.x
    ensures forall s :: s in r.ys ==> s.end - s.start == b && s.end <= r.padded.shape.y
    ensures forall s :: s in r.zs ==> s.end - s.start == b && s.end <= r.padded.shape.z
  {
    var w := PadVolume(v, b);
    Index(AxisCoords(w.shape.x, b, stride), AxisCoords(w.shape.y, b, stride), AxisCoords(w.shape.z, b, stride), w)
  }

  /** The coordinate lists depend on nothing but the volume's shape, the block
      size and the stride: two volumes of one shape get identical lists. */
  lemma SameShapeSameCoords(v1: Volume, v2: Volume, b: nat, stride: nat)
    requires b > 0 && stride > 0 && Valid(v1) && Valid(v2)
    requires v1.shape == v2.shape
    ensures CreateIndex3D(v1, b, stride).xs == CreateIndex3D(v2, b, stride).xs
    ensures CreateIndex3D(v1, b, stride).ys == CreateIndex3D(v2, b, stride).ys
    ensures CreateIndex3D(v1, b, stride).zs == CreateIndex3D(v2, b, stride).zs
    ensures CreateIndex3D(v1, b, stride).padded.shape == CreateIndex3D(v2, b, stride).padded.shape
  {
  }

  /** The padding as written need not reach a multiple of the block size:
      an axis of 130 voxels with blocks of 128 is padded to 132. */
  lemma PaddedLengthNotMultiple()
    ensures PaddedLength(130, 128) == 132
    ensures PaddedLength(130, 128) % 128 != 0
  {
  }

  /** `n` is a whole number of blocks of size `b`. */
  predicate IsMultiple(n: int, b: nat)
    requires b > 0
  {
    n % b == 0
  }

  /** Padding that reaches the smallest multiple of `b` not below `dim`,
      split in the same floor/rest way. */
  function AxisPadToMultiple(dim: nat, b: nat): (p: PadWidth)
    requires b > 0
    ensures IsMultiple(dim + p.before + p.after, b)
    ensures p.before + p.after < b
    ensures forall n :: dim <= n < dim + p.before + p.after ==> !IsMultiple(n, b)
    ensures p.after == p.before || p.after == p.before + 1
  {
    var slack := if dim % b == 0 then 0 else b - dim % b;
    ModShift(dim, b, slack);
    PadWidth(slack / 2, slack - slack / 2)
  }

  /** Division by `b` is determined by any quotient/remainder pair with the
      remainder in [0, b). */
  lemma ModUnique(n: int, b: int, q: int, r: int)
    requires b > 0 && n == q * b + r && 0 <= r < b
    ensures n % b == r && n / b == q
  {
    var q', r' := n / b, n % b;
    assert n == q' * b + r';
    var d := q - q';
    assert d * b == q * b - q' * b;
    assert d * b == r' - r;
    if d > 0 {
      MulAtLeast(d, b);
    } else if d < 0 {
      MulAtLeast(-d, b);
    }
  }

  lemma MulAtLeast(d: int, b: int)
    requires d >= 1 && b > 0
    ensures d * b >= b
  {
    assert d * b == (d - 1) * b + b;
  }

  /** `dim + t` is a multiple of `b` for `t == slack` and for no smaller `t`. */
  lemma ModShift(dim: nat, b: nat, slack: nat)
    requires b > 0 && slack == (if dim % b == 0 then 0 else b - dim % b)
    ensures IsMultiple(dim + slack, b)
    ensures forall n :: dim <= n < dim + slack ==> !IsMultiple(n, b)
  {
    var r := dim % b;
    var q := dim / b;
    assert dim == q * b + r;
    if r != 0 {
      ModUnique(dim + slack, b, q + 1, 0);
      forall n | dim <= n < dim + slack
        ensures !IsMultiple(n, b)
      {
        ModUnique(n, b, q, r + (n - dim));
      }
    }
  }

  /** The two paddings agree exactly on axes already a multiple of the block
      size or exactly half a block short of a multiple. */
  lemma PadAgreement(dim: nat, b: nat)
    requires b > 0
    ensures AxisPad(dim, b) == AxisPadToMultiple(dim, b) <==> (dim % b == 0 || 2 * (dim % b) == b)
  {
    var r := dim % b;
    var p := AxisPad(dim, b);
    var q := AxisPadToMultiple(dim, b);
    assert p.before + p.after == r;
    if r != 0 {
      assert q.before + q.after == b - r;
      if p == q {
        assert r == b - r;
      }
    }
  }
}

=== FILE: lexorder.dfy ===
/** The ordering `list.sort()` uses on file paths: strings compare code point
    by code point, and a proper prefix sorts first. With it, a sort by
    insertion and a sorted de-duplicating insertion for `sorted(set(...))`. */
module LexOrder {

  /** `a <= b` on strings. */
  predicate LexLe(a: string, b: string)
    decreases |a|
  {
    |a| == 0 || (|b| > 0 && (a[0] < b[0] || (a[0] == b[0] && LexLe(a[1..], b[1..]))))
  }

  /** Python's `a <= b` on strings read off the first position where they
      differ: either `a` is a prefix of `b`, or at the first difference `a`
      has the smaller code point. */
  ghost predicate FirstDifferenceLe(a: string, b: string) {
    || (|a| <= |b| && a == b[..|a|])
    || exists k :: 0 <= k < |a| && k < |b| && a[..k] == b[..k] && a[k] < b[k]
  }

  /** The recursive order agrees with the first-difference reading. */
  lemma {:induction false} LexLeIffFirstDifference(a: string, b: string)
    ensures LexLe(a, b) <==> FirstDifferenceLe(a, b)
    decreases |a|
  {
    if |a| == 0 {
      assert a == b[..0];
    } else if |b| == 0 {
    } else if a[0] < b[0] {
      assert a[..0] == b[..0];
    } else if a[0] > b[0] {
      FirstDifferenceGreater(a, b);
    } else {
      LexLeIffFirstDifference(a[1..], b[1..]);
      FirstDifferenceStep(a, b);
    }
  }

  /** A larger first character rules out both readings of `a <= b`. */
  lemma FirstDifferenceGreater(a: string, b: string)
    requires |a| > 0 && |b| > 0 && a[0] > b[0]
    ensures !FirstDifferenceLe(a, b)
  {
    assert |a| <= |b| ==> b[..|a|][0] == b[0];
    forall k | 0 < k <= |a| && k <= |b|
      ensures a[..k][0] == a[0] && b[..k][0] == b[0]
    {
    }
  }

  /** Equal first characters defer the first-difference reading to the tails. */
  lemma FirstDifferenceStep(a: string, b: string)
    requires |a| > 0 && |b| > 0 && a[0] == b[0]
    ensures FirstDifferenceLe(a, b) <==> FirstDifferenceLe(a[1..], b[1..])
  {
    var a', b' := a[1..], b[1..];
    PrefixStep(a, b);
    if k :| 0 <= k < |a'| && k < |b'| && a'[..k] == b'[..k] && a'[k] < b'[k] {
      assert a[..k + 1] == [a[0]] + a'[..k] && b[..k + 1] == [b[0]] + b'[..k];
      assert a[k + 1] < b[k + 1];
    }
    if k :| 0 <= k < |a| && k < |b| && a[..k] == b[..k] && a[k] < b[k] {
      assert k > 0;
      assert a'[..k - 1] == a[..k][1..] && b'[..k - 1] == b[..k][1..];
      assert a'[k - 1] < b'[k - 1];
    }
  }

  /** With equal first characters, `a` is a prefix of `b` exactly when the
      tails are prefixes. */
  lemma PrefixStep(a: string, b: string)
    requires |a| > 0 && |b| > 0 && a[0] == b[0]
    ensures (|a| <= |b| && a == b[..|a|]) <==> (|a[1..]| <= |b[1..]| && a[1..] == b[1..][..|a[1..]|])
  {
    if |a| <= |b| {
      assert b[..|a|] == [b[0]] + b[1..][..|a| - 1];
      assert a == [a[0]] + a[1..];
    }
  }

  lemma {:induction false} LexLeReflexive(a: string)
    ensures LexLe(a, a)
    decreases |a|
  {
    if |a| > 0 {
      LexLeReflexive(a[1..]);
    }
  }

  lemma {:induction false} LexLeTotal(a: string, b: string)
    ensures LexLe(a, b) || LexLe(b, a)
    decreases |a|
  {
    if |a| > 0 && |b| > 0 && a[0] == b[0] {
      LexLeTotal(a[1..], b[1..]);
    }
  }

  lemma {:induction false} LexLeAntisymmetric(a: string, b: string)
    requires LexLe(a, b) && LexLe(b, a)
    ensures a == b
    decreases |a|
  {
    if |a| > 0 {
      LexLeAntisymmetric(a[1..], b[1..]);
      assert a == [a[0]] + a[1..];
      assert b == [b[0]] + b[1..];
    }
  }

  lemma {:induction false} LexLeTransitive(a: string, b: string, c: string)
    requires LexLe(a, b) && LexLe(b, c)
    ensures LexLe(a, c)
    decreases |a|
  {
    if |a| > 0 && a[0] == b[0] && b[0] == c[0] {
      LexLeTransitive(a[1..], b[1..], c[1..]);
    }
  }

  /** Non-decreasing in the string order. */
  ghost predicate Sorted(s: seq<string>) {
    forall i, j :: 0 <= i < j < |s| ==> LexLe(s[i], s[j])
  }

  /** Strictly increasing: sorted and free of duplicates. */
  ghost predicate StrictlySorted(s: seq<string>) {
    forall i, j :: 0 <= i < j < |s| ==> LexLe(s[i], s[j]) && s[i] != s[j]
  }

  function Elems(s: seq<string>): set<string> {
    set x | x in s
  }

  /** Inserts `x` before the first element it does not exceed. */
  function Insert(x: string, s: seq<string>): (r: seq<string>)
    requires Sorted(s)
    ensures Sorted(r)
    ensures multiset(r) == multiset(s) + multiset{x}
    ensures |r| == |s| + 1
  {
    if |s| == 0 then [x]
    else if LexLe(x, s[0]) then
      assert forall j :: 0 < j < |s| ==> LexLe(x, s[j]) by {
        forall j | 0 < j < |s| ensures LexLe(x, s[j]) {
          LexLeTransitive(x, s[0], s[j]);
        }
      }
      ConsSorted(x, s);
      [x] + s
    else
      var rest := Insert(x, s[1..]);
      LexLeTotal(x, s[0]);
      HeadBoundsInsert(s, x, rest);
      ConsSorted(s[0], rest);
      assert s == [s[0]] + s[1..];
      [s[0]] + rest
  }

  /** A sorted list stays sorted under a head that is at most all of it. */
  lemma ConsSorted(h: string, s: seq<string>)
    requires Sorted(s) && forall y :: y in s ==> LexLe(h, y)
    ensures Sorted([h] + s)
  {
    var r := [h] + s;
    forall i, j | 0 <= i < j < |r| ensures LexLe(r[i], r[j]) {
      if i > 0 {
        assert r[i] == s[i - 1] && r[j] == s[j - 1];
      } else {
        assert r[j] == s[j - 1];
      }
    }
  }

  /** The head of a sorted list bounds everything the tail becomes by
      inserting an element above the head. */
  lemma HeadBoundsInsert(s: seq<string>, x: string, rest: seq<string>)
    requires Sorted(s) && |s| > 0 && LexLe(s[0], x)
    requires multiset(rest) == multiset(s[1..]) + multiset{x}
    ensures forall y :: y in rest ==> LexLe(s[0], y)
  {
    forall y | y in rest ensures LexLe(s[0], y) {
      assert y in multiset(rest);
      if y != x {
        assert y in multiset(s[1..]);
        var j :| 0 <= j < |s[1..]| && s[1..][j] == y;
        assert s[j + 1] == y;
      }
    }
  }

  /** `list.sort()` as a function: a sorted permutation of its input. */
  function Sort(s: seq<string>): (r: seq<string>)
    ensures Sorted(r)
    ensures multiset(r) == multiset(s)
    ensures |r| == |s|
  {
    if |s| == 0 then []
    else
      assert s == s[..|s| - 1] + [s[|s| - 1]];
      Insert(s[|s| - 1], Sort(s[..|s| - 1]))
  }

  /** Inserts `x` into a strictly sorted list unless it is already there. */
  function InsertNew(x: string, s: seq<string>): (r: seq<string>)
    requires StrictlySorted(s)
    ensures StrictlySorted(r)
    ensures Elems(r) == Elems(s) + {x}
  {
    if |s| == 0 then [x]
    else if x == s[0] then s
    else if LexLe(x, s[0]) then
      assert forall j :: 0 < j < |s| ==> LexLe(x, s[j]) && x != s[j] by {
        forall j | 0 < j < |s| ensures LexLe(x, s[j]) && x != s[j] {
          LexLeTransitive(x, s[0], s[j]);
          if x == s[j] {
            LexLeAntisymmetric(x, s[0]);
          }
        }
      }
      ConsStrictlySorted(x, s);
      [x] + s
    else
      var rest := InsertNew(x, s[1..]);
      LexLeTotal(x, s[0]);
      assert Elems(s) == {s[0]} + Elems(s[1..]);
      assert forall y :: y in rest ==> LexLe(s[0], y) && s[0] != y by {
        forall y | y in rest ensures LexLe(s[0], y) && s[0] != y {
          assert y in Elems(rest);
          if y != x {
            var j :| 0 <= j < |s[1..]| && s[1..][j] == y;
            assert s[j + 1] == y;
          }
        }
      }
      ConsStrictlySorted(s[0], rest);
      assert Elems([s[0]] + rest) == {s[0]} + Elems(rest);
      [s[0]] + rest
  }

  /** A strictly sorted list stays strictly sorted under a head below all of it. */
  lemma ConsStrictlySorted(h: string, s: seq<string>)
    requires StrictlySorted(s) && forall y :: y in s ==> LexLe(h, y) && h != y
    ensures StrictlySorted([h] + s)
  {
    var r := [h] + s;
    forall i, j | 0 <= i < j < |r| ensures LexLe(r[i], r[j]) && r[i] != r[j] {
      if i > 0 {
        assert r[i] == s[i - 1] && r[j] == s[j - 1];
      } else {
        assert r[j] == s[j - 1];
      }
    }
  }

  /** `sorted(set(s))`: the elements of `s` once each, in increasing order. */
  function SortedSet(s: seq<string>): (r: seq<string>)
    ensures StrictlySorted(r)
    ensures Elems(r) == Elems(s)
  {
    if |s| == 0 then []
    else
      assert Elems(s) == Elems(s[..|s| - 1]) + {s[|s| - 1]};
      InsertNew(s[|s| - 1], SortedSet(s[..|s| - 1]))
  }

  /** A strictly sorted list is determined by its elements: whatever produced
      it, it is the one `SortedSet` produces. */
  lemma {:induction false} StrictlySortedUnique(a: seq<string>, b: seq<string>)
    requires StrictlySorted(a) && StrictlySorted(b)
    requires Elems(a) == Elems(b)
    ensures a == b
    decreases |a|
  {
    if |a| > 0 {
      assert a[0] in Elems(b);
      assert |b| > 0;
      assert b[0] in Elems(a);
      var i :| 0 <= i < |b| && b[i] == a[0];
      var j :| 0 <= j < |a| && a[j] == b[0];
      assert LexLe(b[0], a[0]) by {
        if i > 0 { } else { LexLeReflexive(b[0]); }
      }
      assert LexLe(a[0], b[0]) by {
        if j > 0 { } else { LexLeReflexive(a[0]); }
      }
      LexLeAntisymmetric(a[0], b[0]);
      assert Elems(a[1..]) == Elems(a) - {a[0]} by {
        assert a == [a[0]] + a[1..];
      }
      assert Elems(b[1..]) == Elems(b) - {b[0]} by {
        assert b == [b[0]] + b[1..];
      }
      StrictlySortedUnique(a[1..], b[1..]);
      assert a == [a[0]] + a[1..];
      assert b == [b[0]] + b[1..];
    } else {
      EmptyElems(b);
    }
  }

  lemma EmptyElems(s: seq<string>)
    ensures Elems(s) == {} ==> s == []
  {
    if |s| > 0 {
      assert s[0] in Elems(s);
    }
  }

  /** A sorted list is determined by its multiset of elements, so `Sort`
      agrees with any other sorting algorithm, stable or not. */
  lemma {:induction false} SortedUnique(a: seq<string>, b: seq<string>)
    requires Sorted(a) && Sorted(b)
    requires multiset(a) == multiset(b)
    ensures a == b
    decreases |a|
  {
    if |a| > 0 {
      assert |b| == |multiset(b)| == |multiset(a)| == |a|;
      SameHead(a, b);
      assert a == [a[0]] + a[1..];
      assert b == [b[0]] + b[1..];
      assert multiset(a[1..]) == multiset(a) - multiset{a[0]};
      assert multiset(b[1..]) == multiset(b) - multiset{b[0]};
      SortedUnique(a[1..], b[1..]);
    } else {
      assert |multiset(b)| == 0;
    }
  }

  /** Two sorted lists with the same elements start with the same (least) element. */
  lemma SameHead(a: seq<string>, b: seq<string>)
    requires Sorted(a) && Sorted(b) && |a| > 0 && |b| > 0
    requires multiset(a) == multiset(b)
    ensures a[0] == b[0]
  {
    assert a[0] in multiset(b);
    assert b[0] in multiset(a);
    var i :| 0 <= i < |b| && b[i] == a[0];
    var j :| 0 <= j < |a| && a[j] == b[0];
    assert LexLe(b[0], a[0]) by {
      if i > 0 { } else { LexLeReflexive(b[0]); }
    }
    assert LexLe(a[0], b[0]) by {
      if j > 0 { } else { LexLeReflexive(a[0]); }
    }
    LexLeAntisymmetric(a[0], b[0]);
  }
}

=== FILE: means.dfy ===
/** `np.mean` of a patch over the reals and the sparse-patch rule of the
    per-subject loop. The mean of an empty patch is not a number; every
    comparison with it is false, which `Mean` returning `None` stands for. */
module Means {
  import opened Wrappers
  import opened Volumes

  /** The keep threshold `1e-3`. */
  const Threshold: real := 0.001

  function Sum1(s: seq<real>): real {
    if |s| == 0 then 0.0 else Sum1(s[..|s| - 1]) + s[|s| - 1]
  }

  function Sum2(s: seq<seq<real>>): real {
    if |s| == 0 then 0.0 else Sum2(s[..|s| - 1]) + Sum1(s[|s| - 1])
  }

  function Sum3(s: seq<seq<seq<real>>>): real {
    if |s| == 0 then 0.0 else Sum3(s[..|s| - 1]) + Sum2(s[|s| - 1])
  }

  /** The arithmetic mean of all voxels; `None` for an empty patch. */
  function Mean(v: Volume): (r: Option<real>)
    requires Valid(v)
    ensures r.None? <==> Count(v.shape) == 0
    ensures r.Some? ==> r.value * (Count(v.shape) as real) == Sum3(v.voxels)
  {
    if Count(v.shape) == 0 then None
    else
      var n := Count(v.shape) as real;
      assert Sum3(v.voxels) / n * n == Sum3(v.voxels);
      Some(Sum3(v.voxels) / n)
  }

  /** `np.mean(v) > t`, false when the mean is not a number: for a
      non-empty patch, the sum exceeds `t` times the voxel count. */
  predicate MeanExceeds(v: Volume, t: real): (b: bool)
    requires Valid(v)
    ensures b <==> Count(v.shape) > 0 && Sum3(v.voxels) > (Count(v.shape) as real) * t
  {
    if Count(v.shape) == 0 then false
    else
      MeanCompare(Sum3(v.voxels), Count(v.shape) as real, t);
      Mean(v).value > t
  }

  /** For a positive count, the quotient exceeds `t` exactly when the sum
      exceeds `t` times the count. */
  lemma MeanCompare(a: real, n: real, t: real)
    requires n > 0.0
    ensures a / n > t <==> a > n * t
  {
    if a > n * t {
      DivAbove(a, n, t);
    } else {
      DivBelow(a, n, t);
    }
  }

  /** The keep rule: every pair in the test split, otherwise a pair either of
      whose patches has a mean above the threshold. */
  predicate Kept(isTest: bool, cutX: Volume, cutY: Volume): (b: bool)
    requires Valid(cutX) && Valid(cutY)
    ensures b <==> (|| isTest
                    || (Count(cutX.shape) > 0 && Sum3(cutX.voxels) > (Count(cutX.shape) as real) * Threshold)
                    || (Count(cutY.shape) > 0 && Sum3(cutY.voxels) > (Count(cutY.shape) as real) * Threshold))
  {
    isTest || MeanExceeds(cutX, Threshold) || MeanExceeds(cutY, Threshold)
  }

  /** `s` is an `|s|`-by-`m` grid of values at most `Threshold`. */
  ghost predicate GridAtMost(s: seq<seq<real>>, m: nat) {
    && (forall i :: 0 <= i < |s| ==> |s[i]| == m)
    && (forall i, j :: 0 <= i < |s| && 0 <= j < |s[i]| ==> s[i][j] <= Threshold)
  }

  /** `s` is an `|s|`-by-`m` grid of values above `Threshold`. */
  ghost predicate GridAbove(s: seq<seq<real>>, m: nat) {
    && (forall i :: 0 <= i < |s| ==> |s[i]| == m)
    && (forall i, j :: 0 <= i < |s| && 0 <= j < |s[i]| ==> s[i][j] > Threshold)
  }

  lemma {:induction false} Sum1Bound(s: seq<real>)
    requires forall i :: 0 <= i < |s| ==> s[i] <= Threshold
    ensures Sum1(s) <= (|s| as real) * Threshold
    decreases |s|
  {
    if |s| > 0 {
      Sum1Bound(s[..|s| - 1]);
    }
  }

  lemma {:induction false} Sum2Bound(s: seq<seq<real>>, m: nat)
    requires GridAtMost(s, m)
    ensures Sum2(s) <= ((|s| * m) as real) * Threshold
    decreases |s|
  {
    if |s| > 0 {
      Sum2Bound(s[..|s| - 1], m);
      Sum1Bound(s[|s| - 1]);
      AddAtMost(Sum2(s[..|s| - 1]), Sum1(s[|s| - 1]), (|s| - 1) * m, m);
      CountStep(|s|, |s| - 1, m);
    }
  }

  /** Bounds on two partial sums add up to a bound on their total. */
  lemma AddAtMost(a: real, b: real, x: nat, y: nat)
    requires a <= (x as real) * Threshold && b <= (y as real) * Threshold
    ensures a + b <= ((x + y) as real) * Threshold
  {
  }

  lemma AddAbove(a: real, b: real, x: nat, y: nat)
    requires a > (x as real) * Threshold && b > (y as real) * Threshold
    ensures a + b > ((x + y) as real) * Threshold
  {
  }

  lemma {:induction false} Sum3Bound(s: seq<seq<seq<real>>>, m: nat, p: nat, c: nat)
    requires c == m * p
    requires forall i :: 0 <= i < |s| ==> |s[i]| == m && GridAtMost(s[i], p)
    ensures Sum3(s) <= ((|s| * c) as real) * Threshold
    decreases |s|
  {
    if |s| > 0 {
      var pre, last := s[..|s| - 1], s[|s| - 1];
      assert forall i :: 0 <= i < |pre| ==> pre[i] == s[i];
      Sum3Bound(pre, m, p, c);
      Sum2Bound(last, p);
      AddAtMost(Sum3(pre), Sum2(last), |pre| * c, c);
      CountStep(|s|, |pre|, c);
    }
  }

  lemma {:induction false} Sum1Above(s: seq<real>)
    requires |s| > 0
    requires forall i :: 0 <= i < |s| ==> s[i] > Threshold
    ensures Sum1(s) > (|s| as real) * Threshold
    decreases |s|
  {
    if |s| > 1 {
      Sum1Above(s[..|s| - 1]);
    }
  }

  lemma {:induction false} Sum2Above(s: seq<seq<real>>, m: nat)
    requires |s| > 0 && m > 0 && GridAbove(s, m)
    ensures Sum2(s) > ((|s| * m) as real) * Threshold
    decreases |s|
  {
    Sum1Above(s[|s| - 1]);
    if |s| > 1 {
      Sum2Above(s[..|s| - 1], m);
      AddAbove(Sum2(s[..|s| - 1]), Sum1(s[|s| - 1]), (|s| - 1) * m, m);
      CountStep(|s|, |s| - 1, m);
    }
  }

  lemma {:induction false} Sum3Above(s: seq<seq<seq<real>>>, m: nat, p: nat)
    requires |s| > 0 && m > 0 && p > 0
    requires forall i :: 0 <= i < |s| ==> |s[i]| == m && GridAbove(s[i], p)
    ensures Sum3(s) > ((|s| * (m * p)) as real) * Threshold
    decreases |s|
  {
    Sum2Above(s[|s| - 1], p);
    if |s| > 1 {
      var pre := s[..|s| - 1];
      assert forall i :: 0 <= i < |pre| ==> pre[i] == s[i];
      Sum3Above(pre, m, p);
      AddAbove(Sum3(pre), Sum2(s[|s| - 1]), |pre| * (m * p), m * p);
      CountStep(|s|, |pre|, m * p);
    }
  }

  lemma DivBelow(a: real, n: real, t: real)
    requires n > 0.0 && a <= n * t
    ensures a / n <= t
  {
    assert a / n * n == a;
  }

  lemma DivAbove(a: real, n: real, t: real)
    requires n > 0.0 && a > n * t
    ensures a / n > t
  {
    assert a / n * n == a;
  }

  /** A patch whose voxels are all at most `1e-3` does not have a mean above it. */
  lemma DarkPatchMean(v: Volume)
    requires Valid(v) && forall i, j, k :: InBounds(v.shape, i, j, k) ==> v.voxels[i][j][k] <= Threshold
    ensures !MeanExceeds(v, Threshold)
  {
    if Count(v.shape) > 0 {
      forall i | 0 <= i < |v.voxels|
        ensures |v.voxels[i]| == v.shape.y && GridAtMost(v.voxels[i], v.shape.z)
      {
        assert forall j, k :: 0 <= j < v.shape.y && 0 <= k < v.shape.z ==> InBounds(v.shape, i, j, k);
      }
      Sum3Bound(v.voxels, v.shape.y, v.shape.z, v.shape.y * v.shape.z);
      MulAssoc(v.shape.x, v.shape.y, v.shape.z);
      DivBelow(Sum3(v.voxels), Count(v.shape) as real, Threshold);
    }
  }

  /** A non-empty patch whose voxels all exceed `1e-3` has a mean above it. */
  lemma BrightPatchMean(v: Volume)
    requires Valid(v) && Count(v.shape) > 0
    requires forall i, j, k :: InBounds(v.shape, i, j, k) ==> v.voxels[i][j][k] > Threshold
    ensures MeanExceeds(v, Threshold)
  {
    assert v.shape.x > 0 && v.shape.y > 0 && v.shape.z > 0;
    forall i | 0 <= i < |v.voxels|
      ensures |v.voxels[i]| == v.shape.y && GridAbove(v.voxels[i], v.shape.z)
    {
      assert forall j, k :: 0 <= j < v.shape.y && 0 <= k < v.shape.z ==> InBounds(v.shape, i, j, k);
    }
    Sum3Above(v.voxels, v.shape.y, v.shape.z);
    MulAssoc(v.shape.x, v.shape.y, v.shape.z);
    DivAbove(Sum3(v.voxels), Count(v.shape) as real, Threshold);
  }

  /** Outside the test split a pair of patches with every voxel at most
      `1e-3` is discarded; a pair with every voxel of one patch above it is kept. */
  lemma KeptRule(cutX: Volume, cutY: Volume)
    requires Valid(cutX) && Valid(cutY)
    ensures (forall i, j, k :: InBounds(cutX.shape, i, j, k) ==> cutX.voxels[i][j][k] <= Threshold)
         && (forall i, j, k :: InBounds(cutY.shape, i, j, k) ==> cutY.voxels[i][j][k] <= Threshold)
         ==> !Kept(false, cutX, cutY)
    ensures Count(cutX.shape) > 0 && (forall i, j, k :: InBounds(cutX.shape, i, j, k) ==> cutX.voxels[i][j][k] > Threshold)
         ==> Kept(false, cutX, cutY)
    ensures Kept(true, cutX, cutY)
  {
    if (forall i, j, k :: InBounds(cutX.shape, i, j, k) ==> cutX.voxels[i][j][k] <= Threshold)
       && (forall i, j, k :: InBounds(cutY.shape, i, j, k) ==> cutY.voxels[i][j][k] <= Threshold) {
      DarkPatchMean(cutX);
      DarkPatchMean(cutY);
    }
    if Count(cutX.shape) > 0 && (forall i, j, k :: InBounds(cutX.shape, i, j, k) ==> cutX.voxels[i][j][k] > Threshold) {
      BrightPatchMean(cutX);
    }
  }
}

=== FILE: naming.dfy ===
/** Save-name construction of the per-subject loop:
    `folder + "X_" + id + "_{0:03d}_{1:03d}_{2:03d}".format(sx, sy, sz) + ".npy"`
    and its "Y_" twin. The decimal formatting is paired with a parser, and
    the names are shown to determine the block origin they encode. */
module Naming {

  predicate IsDigit(c: char) {
    '0' <= c <= '9'
  }

  predicate AllDigits(s: string) {
    forall i :: 0 <= i < |s| ==> IsDigit(s[i])
  }

  function DigitChar(d: nat): (c: char)
    requires d < 10
    ensures IsDigit(c)
  {
    ('0' as int + d) as char
  }

  function DigitValue(c: char): nat
    requires IsDigit(c)
  {
    c as int - '0' as int
  }

  /** The decimal digits of `n` without leading zeros, as `"{:d}"` writes them. */
  function Decimal(n: nat): (s: string)
    ensures 1 <= |s| && AllDigits(s)
    ensures n < 10 ==> |s| == 1
    ensures n < 100 ==> |s| <= 2
    ensures n < 1000 ==> |s| <= 3
    ensures n >= 10 ==> |s| >= 2
    ensures n >= 100 ==> |s| >= 3
    ensures n == 0 ==> s == "0"
    ensures n > 0 ==> s[0] != '0'
    decreases n
  {
    if n < 10 then [DigitChar(n)] else Decimal(n / 10) + [DigitChar(n % 10)]
  }

  /** The value of a string of decimal digits. */
  function ParseDecimal(s: string): nat
    requires AllDigits(s)
    decreases |s|
  {
    if |s| == 0 then 0 else 10 * ParseDecimal(s[..|s| - 1]) + DigitValue(s[|s| - 1])
  }

  lemma {:induction false} DecimalRoundTrip(n: nat)
    ensures ParseDecimal(Decimal(n)) == n
    decreases n
  {
    if n >= 10 {
      var d := Decimal(n);
      DecimalRoundTrip(n / 10);
      assert d[..|d| - 1] == Decimal(n / 10);
    }
  }

  function Zeros(k: nat): (s: string)
    ensures |s| == k && AllDigits(s)
    ensures forall i :: 0 <= i < k ==> s[i] == '0'
  {
    seq(k, i => '0')
  }

  lemma {:induction false} ZerosParse(k: nat)
    ensures ParseDecimal(Zeros(k)) == 0
    decreases k
  {
    if k > 0 {
      assert Zeros(k)[..k - 1] == Zeros(k - 1);
      ZerosParse(k - 1);
    }
  }

  /** Leading zeros do not change the value. */
  lemma {:induction false} LeadingZeros(k: nat, s: string)
    requires AllDigits(s)
    ensures AllDigits(Zeros(k) + s)
    ensures ParseDecimal(Zeros(k) + s) == ParseDecimal(s)
    decreases |s|
  {
    var z := Zeros(k) + s;
    if |s| == 0 {
      assert z == Zeros(k);
      ZerosParse(k);
    } else {
      assert z[..|z| - 1] == Zeros(k) + s[..|s| - 1];
      LeadingZeros(k, s[..|s| - 1]);
    }
  }

  /** `"{0:03d}".format(n)`: the decimal digits of `n`, left-padded with zeros
      to at least three characters; parsing them gives `n` back. */
  function Format03(n: nat): (s: string)
    ensures AllDigits(s) && 3 <= |s|
    ensures n < 1000 ==> |s| == 3
    ensures n >= 100 ==> s == Decimal(n)
    ensures ParseDecimal(s) == n
  {
    var d := Decimal(n);
    var k := if |d| < 3 then 3 - |d| else 0;
    LeadingZeros(k, d);
    DecimalRoundTrip(n);
    Zeros(k) + d
  }

  /** Distinct numbers are formatted differently. */
  lemma Format03Injective(a: nat, b: nat)
    ensures Format03(a) == Format03(b) <==> a == b
  {
  }

  /** The shared tail `"_%03d_%03d_%03d"` of the X and Y names. */
  function CoordSuffix(sx: nat, sy: nat, sz: nat): (r: string)
    ensures |r| >= 12 && r[0] == '_'
    ensures sx < 1000 && sy < 1000 && sz < 1000 ==> |r| == 12
  {
    "_" + (Format03(sx) + ("_" + (Format03(sy) + ("_" + Format03(sz)))))
  }

  /** Below 1000 the tail reads `_x_y_z`: three-digit fields for x, y and
      z in that order, each parsing back to its coordinate. */
  lemma CoordSuffixFields(sx: nat, sy: nat, sz: nat)
    requires sx < 1000 && sy < 1000 && sz < 1000
    ensures var r := CoordSuffix(sx, sy, sz);
      && r[0] == '_' && r[4] == '_' && r[8] == '_'
      && AllDigits(r[1..4]) && AllDigits(r[5..8]) && AllDigits(r[9..12])
      && ParseDecimal(r[1..4]) == sx && ParseDecimal(r[5..8]) == sy && ParseDecimal(r[9..12]) == sz
  {
    var r := CoordSuffix(sx, sy, sz);
    assert r[1..4] == Format03(sx);
    assert r[5..8] == Format03(sy);
    assert r[9..12] == Format03(sz);
  }

  /** A name for one patch: folder, modality tag ("X" or "Y"), "_", subject
      identifier, the coordinate suffix and the ".npy" extension. */
  function SaveName(folder: string, tag: string, id: string, sx: nat, sy: nat, sz: nat): (name: string)
    ensures StartsWith(name, folder + tag + "_" + id)
    ensures EndsWith(name, CoordSuffix(sx, sy, sz) + ".npy")
    ensures |name| == |folder + tag + "_" + id| + |CoordSuffix(sx, sy, sz) + ".npy"|
  {
    var prefix := folder + tag + "_" + id;
    assert prefix + CoordSuffix(sx, sy, sz) + ".npy" == prefix + (CoordSuffix(sx, sy, sz) + ".npy");
    prefix + CoordSuffix(sx, sy, sz) + ".npy"
  }

  predicate StartsWith(s: string, prefix: string) {
    |prefix| <= |s| && s[..|prefix|] == prefix
  }

  predicate EndsWith(s: string, suffix: string) {
    |suffix| <= |s| && s[|s| - |suffix|..] == suffix
  }

  /** Index of the first character of `s` that is not a digit, `|s|` if none. */
  function DigitRun(s: string): (k: nat)
    ensures k <= |s|
  {
    if |s| == 0 || !IsDigit(s[0]) then 0 else 1 + DigitRun(s[1..])
  }

  lemma {:induction false} DigitsEndAtSeparator(a: string, r: string)
    requires AllDigits(a)
    ensures DigitRun(a + ("_" + r)) == |a|
    decreases |a|
  {
    if |a| > 0 {
      assert (a + ("_" + r))[1..] == a[1..] + ("_" + r);
      DigitsEndAtSeparator(a[1..], r);
    }
  }

  /** A digit string followed by "_" can be split back unambiguously. */
  lemma SplitAtSeparator(a: string, r: string, a': string, r': string)
    requires AllDigits(a) && AllDigits(a')
    requires a + ("_" + r) == a' + ("_" + r')
    ensures a == a' && r == r'
  {
    var s := a + ("_" + r);
    DigitsEndAtSeparator(a, r);
    DigitsEndAtSeparator(a', r');
    assert a == s[..|a|] && a' == s[..|a'|];
    assert r == s[|a| + 1..] && r' == s[|a'| + 1..];
  }

  /** The coordinate suffix determines the block origin. */
  lemma CoordSuffixInjective(x1: nat, y1: nat, z1: nat, x2: nat, y2: nat, z2: nat)
    requires CoordSuffix(x1, y1, z1) == CoordSuffix(x2, y2, z2)
    ensures x1 == x2 && y1 == y2 && z1 == z2
  {
    var t1 := Format03(x1) + ("_" + (Format03(y1) + ("_" + Format03(z1))));
    var t2 := Format03(x2) + ("_" + (Format03(y2) + ("_" + Format03(z2))));
    assert t1 == ("_" + t1)[1..] && t2 == ("_" + t2)[1..];
    SplitAtSeparator(Format03(x1), Format03(y1) + ("_" + Format03(z1)), Format03(x2), Format03(y2) + ("_" + Format03(z2)));
    SplitAtSeparator(Format03(y1), Format03(z1), Format03(y2), Format03(z2));
    Format03Injective(x1, x2);
    Format03Injective(y1, y2);
    Format03Injective(z1, z2);
  }

  /** Within one folder, tag and subject, distinct block origins get distinct
      file names, so no saved patch overwrites another. */
  lemma SaveNameInjective(folder: string, tag: string, id: string, x1: nat, y1: nat, z1: nat, x2: nat, y2: nat, z2: nat)
    ensures SaveName(folder, tag, id, x1, y1, z1) == SaveName(folder, tag, id, x2, y2, z2)
      <==> x1 == x2 && y1 == y2 && z1 == z2
  {
    var prefix := folder + tag + "_" + id;
    var n1 := SaveName(folder, tag, id, x1, y1, z1);
    var n2 := SaveName(folder, tag, id, x2, y2, z2);
    if n1 == n2 {
      var c1, c2 := CoordSuffix(x1, y1, z1), CoordSuffix(x2, y2, z2);
      assert n1 == prefix + c1 + ".npy" && n2 == prefix + c2 + ".npy";
      assert |c1| == |c2|;
      assert c1 == n1[|prefix|..|prefix| + |c1|];
      assert c2 == n2[|prefix|..|prefix| + |c2|];
      CoordSuffixInjective(x1, y1, z1, x2, y2, z2);
    }
  }
}

=== FILE: normalize.dfy ===
/** The two intensity normalisers `normX` (PET, the input modality) and
    `normY` (CT, the target modality). Each is a clip followed by an affine
    rescale, applied voxel by voxel; real arithmetic stands in for the
    floating-point arithmetic of the array library. */
module Normalize {
  import opened Volumes

  /** `normX`: negatives become 0, values above 3000 become 6000, then
      everything is divided by 6000. */
  function NormX(x: real): (y: real)
    ensures x < 0.0 ==> y == 0.0
    ensures 0.0 <= x <= 3000.0 ==> y == x / 6000.0 && y <= 0.5
    ensures x > 3000.0 ==> y == 1.0
    ensures 0.0 <= y <= 1.0
  {
    var clippedLow := if x < 0.0 then 0.0 else x;
    var clipped := if clippedLow > 3000.0 then 6000.0 else clippedLow;
    clipped / 6000.0
  }

  /** `normY`: values are clipped into [-1000, 3000], shifted by 1000 and
      divided by 4000. */
  function NormY(x: real): (y: real)
    ensures x <= -1000.0 ==> y == 0.0
    ensures x >= 3000.0 ==> y == 1.0
    ensures -1000.0 < x < 3000.0 ==> y == (x + 1000.0) / 4000.0
    ensures 0.0 <= y <= 1.0
  {
    var clippedLow := if x < -1000.0 then -1000.0 else x;
    var clipped := if clippedLow > 3000.0 then 3000.0 else clippedLow;
    (clipped + 1000.0) / 4000.0
  }

  /** `normX` never decreases when its input grows. */
  lemma NormXMonotone(a: real, b: real)
    requires a <= b
    ensures NormX(a) <= NormX(b)
  {
  }

  /** `normY` never decreases when its input grows. */
  lemma NormYMonotone(a: real, b: real)
    requires a <= b
    ensures NormY(a) <= NormY(b)
  {
  }

  /** `normX` leaves no output strictly between 0.5 and 1: values above 3000
      jump straight to 6000 before the division. */
  lemma NormXGap(x: real)
    ensures NormX(x) <= 0.5 || NormX(x) == 1.0
    ensures NormX(x) == 1.0 <==> x > 3000.0
  {
  }

  /** `normY` is injective on the unclipped range, so it loses no information there. */
  lemma NormYInjectiveInRange(a: real, b: real)
    requires -1000.0 <= a <= 3000.0 && -1000.0 <= b <= 3000.0
    ensures NormY(a) == NormY(b) <==> a == b
  {
  }

  /** Neither normaliser is idempotent on values already in [0, 1]: a second
      application rescales them again. */
  lemma NormalizersNotIdempotent()
    ensures NormX(3000.0) == 0.5 && NormX(NormX(3000.0)) != NormX(3000.0)
    ensures NormY(0.0) == 0.25 && NormY(NormY(0.0)) != NormY(0.0)
  {
  }

  /** The volume form of `normX`: same shape, each voxel normalised, all in [0, 1]. */
  function NormXVolume(v: Volume): (w: Volume)
    requires Valid(v)
    ensures Valid(w) && w.shape == v.shape
    ensures forall i, j, k :: InBounds(v.shape, i, j, k) ==> w.voxels[i][j][k] == NormX(v.voxels[i][j][k])
    ensures AllWithin(w, 0.0, 1.0)
  {
    MapVoxels(v, NormX)
  }

  /** The volume form of `normY`: same shape, each voxel normalised, all in [0, 1]. */
  function NormYVolume(v: Volume): (w: Volume)
    requires Valid(v)
    ensures Valid(w) && w.shape == v.shape
    ensures forall i, j, k :: InBounds(v.shape, i, j, k) ==> w.voxels[i][j][k] == NormY(v.voxels[i][j][k])
    ensures AllWithin(w, 0.0, 1.0)
  {
    MapVoxels(v, NormY)
  }
}

=== FILE: partitioner.dfy ===
/** The dataset partitioner: the shuffled file list is cut into a validation
    prefix, a test suffix and the remaining training files, each sorted.
    The shuffle itself is not modelled; the shuffled list is the input, and
    the two counts `int(len * ratio)` are given as naturals. */
module Partitioner {
  import opened LexOrder
  import opened PySlice

  datatype Split = Split(train: seq<string>, val: seq<string>, test: seq<string>)

  function Min(a: nat, b: nat): nat {
    if a <= b then a else b
  }

  /** `s[:i]` and `s[i:]` with Python's bound normalisation. */
  function SliceTo(s: seq<string>, i: int): (r: seq<string>)
    ensures 0 <= i ==> |r| == Min(i, |s|)
    ensures i < 0 ==> |r| + Min(-i, |s|) == |s|
    ensures forall k :: 0 <= k < |r| ==> r[k] == s[k]
  {
    s[..SliceBound(|s|, i)]
  }

  function SliceFrom(s: seq<string>, i: int): (r: seq<string>)
    ensures 0 <= i ==> |r| + Min(i, |s|) == |s|
    ensures i < 0 ==> |r| == Min(-i, |s|)
    ensures forall k :: 0 <= k < |r| ==> r[k] == s[|s| - |r| + k]
  {
    s[SliceBound(|s|, i)..]
  }

  /** `s[:i] + s[i:] == s` for every bound, negative or out of range. */
  lemma SliceToFromSplit(s: seq<string>, i: int)
    ensures SliceTo(s, i) + SliceFrom(s, i) == s
  {
  }

  /** The elements of `s` that are not in `excluded`, in order. */
  function Without(s: seq<string>, excluded: set<string>): (r: seq<string>)
    ensures Elems(r) == Elems(s) - excluded
  {
    if |s| == 0 then []
    else
      assert Elems(s) == {s[0]} + Elems(s[1..]) by {
        assert s == [s[0]] + s[1..];
      }
      var rest := Without(s[1..], excluded);
      if s[0] in excluded then rest
      else
        assert Elems([s[0]] + rest) == {s[0]} + Elems(rest);
        [s[0]] + rest
  }

  /** Elements of a list are the elements of its multiset. */
  lemma ElemsOfPermutation(a: seq<string>, b: seq<string>)
    requires multiset(a) == multiset(b)
    ensures Elems(a) == Elems(b)
  {
    assert forall x :: x in a <==> x in multiset(a);
    assert forall x :: x in b <==> x in multiset(b);
  }

  /** The training list: `sorted(list(set(files) - set(val) - set(test)))`. */
  function TrainList(files: seq<string>, valList: seq<string>, testList: seq<string>): (r: seq<string>)
    ensures StrictlySorted(r)
    ensures Elems(r) == Elems(files) - Elems(valList) - Elems(testList)
  {
    SortedSet(Without(files, Elems(valList) + Elems(testList)))
  }

  /** When the validation and test lists are drawn from `files`, the
      training list is drawn from the rest and the three cover `files`. */
  lemma TrainCovers(files: seq<string>, valList: seq<string>, testList: seq<string>)
    requires Elems(valList) <= Elems(files) && Elems(testList) <= Elems(files)
    ensures forall f :: f in TrainList(files, valList, testList) ==> f in files && f !in valList && f !in testList
    ensures Elems(TrainList(files, valList, testList)) + Elems(valList) + Elems(testList) == Elems(files)
  {
    var trainList := TrainList(files, valList, testList);
    assert forall f :: f in trainList ==> f in Elems(trainList);
  }

  /** `valList = sorted(fileList[:kv])`. */
  function ValList(files: seq<string>, kv: nat): (r: seq<string>)
    ensures Sorted(r) && multiset(r) == multiset(files[..Min(kv, |files|)])
    ensures Elems(r) <= Elems(files)
  {
    var prefix := SliceTo(files, kv);
    assert prefix == files[..Min(kv, |files|)];
    ElemsOfPermutation(Sort(prefix), prefix);
    assert Elems(prefix) <= Elems(files);
    Sort(prefix)
  }

  /** `testList = sorted(fileList[-kt:])`. Because `-0 == 0`, a test count of
      zero selects the whole list, as does a count beyond its length. */
  function TestList(files: seq<string>, kt: nat): (r: seq<string>)
    ensures Sorted(r)
    ensures 0 < kt <= |files| ==> multiset(r) == multiset(files[|files| - kt..])
    ensures kt == 0 || kt >= |files| ==> multiset(r) == multiset(files)
    ensures Elems(r) <= Elems(files)
  {
    var suffix := SliceFrom(files, -(kt as int));
    assert kt == 0 || kt >= |files| ==> suffix == files;
    ElemsOfPermutation(Sort(suffix), suffix);
    assert Elems(suffix) <= Elems(files);
    Sort(suffix)
  }

  /** The partition of data_preprocess.py: validation prefix, test suffix,
      and the sorted set of the remaining files for training. */
  function Partition(files: seq<string>, kv: nat, kt: nat): (p: Split)
    ensures Sorted(p.val) && multiset(p.val) == multiset(files[..Min(kv, |files|)])
    ensures Sorted(p.test)
    ensures 0 < kt <= |files| ==> multiset(p.test) == multiset(files[|files| - kt..])
    ensures kt == 0 || kt >= |files| ==> multiset(p.test) == multiset(files)
    ensures StrictlySorted(p.train)
    ensures forall f :: f in p.train ==> f in files && f !in p.val && f !in p.test
    ensures Elems(p.train) + Elems(p.val) + Elems(p.test) == Elems(files)
  {
    var valList := ValList(files, kv);
    var testList := TestList(files, kt);
    TrainCovers(files, valList, testList);
    Assemble(files, valList, testList)
  }

  /** The three lists of a split, the training list being the rest of `files`. */
  function Assemble(files: seq<string>, valList: seq<string>, testList: seq<string>): Split {
    Split(TrainList(files, valList, testList), valList, testList)
  }

  /** With a test count of zero the `[-0:]` slice puts every file into the
      test list and leaves the training list empty. */
  lemma ZeroTestCountEmptiesTrain(files: seq<string>, kv: nat)
    ensures multiset(Partition(files, kv, 0).test) == multiset(files)
    ensures Partition(files, kv, 0).train == []
  {
    var p := Partition(files, kv, 0);
    ElemsOfPermutation(p.test, files);
    EmptyElems(p.train);
  }

  /** The partition with the test list read as the last `kt` files, so that
      a test count of zero gives an empty test list. */
  function PartitionIntended(files: seq<string>, kv: nat, kt: nat): (p: Split)
    ensures Sorted(p.val) && multiset(p.val) == multiset(files[..Min(kv, |files|)])
    ensures Sorted(p.test) && multiset(p.test) == multiset(files[|files| - Min(kt, |files|)..])
    ensures |p.test| == Min(kt, |files|)
    ensures kt == 0 ==> p.test == []
    ensures StrictlySorted(p.train)
    ensures forall f :: f in p.train ==> f in files && f !in p.val && f !in p.test
    ensures Elems(p.train) + Elems(p.val) + Elems(p.test) == Elems(files)
  {
    var n := |files|;
    var valList := Sort(files[..Min(kv, n)]);
    var testList := Sort(files[n - Min(kt, n)..]);
    ElemsOfPermutation(valList, files[..Min(kv, n)]);
    ElemsOfPermutation(testList, files[n - Min(kt, n)..]);
    assert Elems(files[..Min(kv, n)]) <= Elems(files);
    assert Elems(files[n - Min(kt, n)..]) <= Elems(files);
    TrainCovers(files, valList, testList);
    Assemble(files, valList, testList)
  }

  /** The two readings differ only when the test count is zero. */
  lemma PartitionAgreesForPositiveTestCount(files: seq<string>, kv: nat, kt: nat)
    ensures kt > 0 ==> Partition(files, kv, kt) == PartitionIntended(files, kv, kt)
    ensures kt == 0 && |files| > 0 ==> Partition(files, kv, kt) != PartitionIntended(files, kv, kt)
  {
    if kt > 0 {
      SameListsForPositiveTestCount(files, kv, kt);
    } else if |files| > 0 {
      assert |Partition(files, kv, kt).test| == |files|;
      assert |PartitionIntended(files, kv, kt).test| == 0;
    }
  }

  lemma SameListsForPositiveTestCount(files: seq<string>, kv: nat, kt: nat)
    requires kt > 0
    ensures Partition(files, kv, kt) == PartitionIntended(files, kv, kt)
  {
    SameValList(files, kv);
    SameTestList(files, kt);
  }

  lemma SameValList(files: seq<string>, kv: nat)
    ensures ValList(files, kv) == Sort(files[..Min(kv, |files|)])
  {
    assert SliceTo(files, kv) == files[..Min(kv, |files|)];
  }

  lemma SameTestList(files: seq<string>, kt: nat)
    requires kt > 0
    ensures TestList(files, kt) == Sort(files[|files| - Min(kt, |files|)..])
  {
    assert SliceFrom(files, -(kt as int)) == files[|files| - Min(kt, |files|)..];
  }

  /** All entries of `s` are distinct, as glob results are. */
  ghost predicate Distinct(s: seq<string>) {
    forall i, j :: 0 <= i < j < |s| ==> s[i] != s[j]
  }

  /** The validation prefix and the test suffix of `Partition` share a file
      exactly when the two counts together exceed the number of (distinct)
      files. */
  lemma ValTestOverlapIffCountsExceed(files: seq<string>, kv: nat, kt: nat)
    requires Distinct(files)
    requires kv <= |files| && 0 < kt <= |files|
    ensures Elems(ValList(files, kv)) * Elems(TestList(files, kt)) != {} <==> kv + kt > |files|
  {
    ValElems(files, kv);
    TestElems(files, kt);
    SliceOverlap(files, kv, kt);
  }

  lemma ValElems(files: seq<string>, kv: nat)
    requires kv <= |files|
    ensures Elems(ValList(files, kv)) == Elems(files[..kv])
  {
    ElemsOfPermutation(ValList(files, kv), files[..kv]);
  }

  lemma TestElems(files: seq<string>, kt: nat)
    requires 0 < kt <= |files|
    ensures Elems(TestList(files, kt)) == Elems(files[|files| - kt..])
  {
    ElemsOfPermutation(TestList(files, kt), files[|files| - kt..]);
  }

  lemma SliceOverlap(files: seq<string>, kv: nat, kt: nat)
    requires Distinct(files)
    requires kv <= |files| && 0 < kt <= |files|
    ensures Elems(files[..kv]) * Elems(files[|files| - kt..]) != {} <==> kv + kt > |files|
  {
    var n := |files|;
    if kv + kt > n {
      var f := files[n - kt];
      assert f == files[..kv][n - kt];
      assert f == files[n - kt..][0];
      assert f in Elems(files[..kv]) * Elems(files[n - kt..]);
    } else {
      forall f | f in Elems(files[..kv])
        ensures f !in Elems(files[n - kt..])
      {
        var i :| 0 <= i < kv && files[..kv][i] == f;
        assert forall j :: n - kt <= j < n ==> files[j] != files[i];
      }
      assert Elems(files[..kv]) * Elems(files[n - kt..]) == {};
    }
  }
}

=== FILE: pyslice.dfy ===
/** Python's rule for the bounds of a slice `s[lo:hi]`, shared by list,
    string and array slicing. */
module PySlice {

  /** Python's normalisation of a slice bound `i` for a sequence of length `n`:
      a negative bound counts from the end, and out-of-range bounds clamp. */
  function SliceBound(n: nat, i: int): (k: nat)
    ensures k <= n
    ensures 0 <= i <= n ==> k == i
    ensures i < 0 && n + i >= 0 ==> k + (-i) == n
    ensures n + i < 0 ==> k == 0
    ensures i > n ==> k == n
  {
    if i < 0 then (if n + i < 0 then 0 else n + i) else if i > n then n else i
  }
}

=== FILE: pystr.dfy ===
/** The few string operations the per-subject loop applies to file paths:
    `str.replace`, `os.path.basename` (POSIX separator) and slicing with
    Python's clamping of out-of-range bounds. */
module PyStr {
  import opened PySlice

  /** `pat` occurs in `s` starting at index `i`. */
  predicate OccursAt(s: string, pat: string, i: int) {
    0 <= i && i + |pat| <= |s| && s[i..i + |pat|] == pat
  }

  ghost predicate Contains(s: string, pat: string) {
    exists i :: OccursAt(s, pat, i)
  }

  /** An occurrence in a tail is an occurrence in the whole string. */
  lemma ContainsTail(s: string, pat: string, d: nat)
    requires d <= |s| && Contains(s[d..], pat)
    ensures Contains(s, pat)
  {
    var i :| OccursAt(s[d..], pat, i);
    assert s[d..][i..i + |pat|] == s[i + d..i + d + |pat|];
    assert OccursAt(s, pat, i + d);
  }

  /** `s.replace(pat, rep)`: every non-overlapping occurrence of `pat`,
      scanning from the left, is replaced by `rep`. */
  function ReplaceAll(s: string, pat: string, rep: string): (r: string)
    requires |pat| > 0
    ensures !Contains(s, pat) ==> r == s
    ensures |rep| <= |pat| ==> |r| <= |s|
    decreases |s|
  {
    if |s| < |pat| then s
    else if s[..|pat|] == pat then
      assert OccursAt(s, pat, 0);
      rep + ReplaceAll(s[|pat|..], pat, rep)
    else
      assert Contains(s[1..], pat) ==> Contains(s, pat) by {
        if Contains(s[1..], pat) {
          ContainsTail(s, pat, 1);
        }
      }
      assert s == [s[0]] + s[1..];
      [s[0]] + ReplaceAll(s[1..], pat, rep)
  }

  /** The target path of a PET path: `pathX.replace("PET", "CT")`. */
  function TargetPath(pathX: string): (pathY: string)
    ensures !Contains(pathX, "PET") ==> pathY == pathX
    ensures |pathY| <= |pathX|
  {
    ReplaceAll(pathX, "PET", "CT")
  }

  /** The first "PET" of a path, preceded by a part free of "PET", becomes
      "CT", and the scan resumes right after it. */
  lemma {:induction false} TargetPathSplit(a: string, b: string)
    requires !Contains(a, "PET")
    ensures TargetPath(a + "PET" + b) == a + "CT" + TargetPath(b)
    decreases |a|
  {
    if |a| == 0 {
      assert a + "PET" + b == "PET" + b;
      TargetPathAtPET(b);
    } else {
      var rest := a[1..] + "PET" + b;
      assert a + "PET" + b == [a[0]] + rest;
      NoPETAtStart(a, b);
      TargetPathStep(a[0], rest);
      assert !Contains(a[1..], "PET") by {
        if Contains(a[1..], "PET") {
          ContainsTail(a, "PET", 1);
        }
      }
      TargetPathSplit(a[1..], b);
      assert a == [a[0]] + a[1..];
    }
  }

  lemma TargetPathAtPET(b: string)
    ensures TargetPath("PET" + b) == "CT" + TargetPath(b)
  {
    var s := "PET" + b;
    assert s[..3] == "PET" && s[3..] == b;
  }

  /** A string that does not start with "PET" keeps its first character. */
  lemma TargetPathStep(c: char, rest: string)
    requires !(|rest| >= 2 && c == 'P' && rest[0] == 'E' && rest[1] == 'T')
    ensures TargetPath([c] + rest) == [c] + TargetPath(rest)
  {
    var s := [c] + rest;
    if |s| >= 3 {
      assert s[..3] == [c, rest[0], rest[1]];
    }
    assert s[1..] == rest;
  }

  /** A non-empty part free of "PET" cannot start "PET" with what follows. */
  lemma NoPETAtStart(a: string, b: string)
    requires |a| > 0 && !Contains(a, "PET")
    ensures var rest := a[1..] + "PET" + b;
      !(|rest| >= 2 && a[0] == 'P' && rest[0] == 'E' && rest[1] == 'T')
  {
    var rest := a[1..] + "PET" + b;
    if |a| >= 3 {
      assert !OccursAt(a, "PET", 0);
      assert a[..3] == [a[0], rest[0], rest[1]];
    } else if |a| == 2 {
      assert rest[1] == 'P';
    } else {
      assert rest[0] == 'P';
    }
  }

  /** After the substitution no "PET" is left: "CT" cannot complete an
      occurrence with its neighbours, so the scan never leaves one behind. */
  lemma {:induction false} TargetPathHasNoPET(s: string)
    ensures !Contains(TargetPath(s), "PET")
    decreases |s|
  {
    if |s| < 3 {
    } else if s[..3] == "PET" {
      TargetPathHasNoPET(s[3..]);
      PrefixCTKeepsNoPET(TargetPath(s[3..]));
    } else {
      TargetPathHasNoPET(s[1..]);
      NoPETAtFront(s);
      PrefixCharKeepsNoPET(s[0], TargetPath(s[1..]));
    }
  }

  lemma PrefixCTKeepsNoPET(rest: string)
    requires !Contains(rest, "PET")
    ensures !Contains("CT" + rest, "PET")
  {
    var r := "CT" + rest;
    forall i ensures !OccursAt(r, "PET", i) {
      if 0 <= i < 2 && i + 3 <= |r| {
        assert r[i..i + 3][0] == r[i] != 'P';
      } else if 2 <= i && i + 3 <= |r| {
        assert r[i..i + 3] == rest[i - 2..i + 1];
        assert !OccursAt(rest, "PET", i - 2);
      }
    }
  }

  lemma PrefixCharKeepsNoPET(c: char, rest: string)
    requires !Contains(rest, "PET")
    requires !(|rest| >= 2 && c == 'P' && rest[0] == 'E' && rest[1] == 'T')
    ensures !Contains([c] + rest, "PET")
  {
    var r := [c] + rest;
    forall i ensures !OccursAt(r, "PET", i) {
      if i == 0 && 3 <= |r| {
        assert r[0..3] == [c, rest[0], rest[1]];
      } else if 1 <= i && i + 3 <= |r| {
        assert r[i..i + 3] == rest[i - 1..i + 2];
        assert !OccursAt(rest, "PET", i - 1);
      }
    }
  }

  /** A string that does not start with "PET" keeps a first character that
      cannot begin "PET" together with the start of the replaced tail. */
  lemma NoPETAtFront(s: string)
    requires |s| >= 3 && s[..3] != "PET"
    ensures !(|TargetPath(s[1..])| >= 2 && s[0] == 'P' && TargetPath(s[1..])[0] == 'E' && TargetPath(s[1..])[1] == 'T')
  {
    var t := s[1..];
    if |t| >= 3 && t[..3] != "PET" {
      assert TargetPath(t) == [t[0]] + TargetPath(t[1..]);
      var u := t[1..];
      if |u| >= 3 && u[..3] == "PET" {
        assert TargetPath(u)[0] == 'C';
      }
    }
    assert s[..3] == [s[0], s[1], s[2]];
  }

  /** `os.path.basename(path)`: the longest suffix free of '/'. */
  function Basename(path: string): (b: string)
    ensures '/' !in b
    ensures |b| <= |path| && b == path[|path| - |b|..]
    ensures |b| < |path| ==> path[|path| - |b| - 1] == '/'
  {
    if |path| == 0 then ""
    else if path[|path| - 1] == '/' then ""
    else
      var b := Basename(path[..|path| - 1]);
      b + [path[|path| - 1]]
  }

  /** `s[lo:hi]` for non-negative bounds: both bounds clamp to `|s|` and an
      empty range gives the empty string. */
  function Slice(s: string, lo: nat, hi: nat): (r: string)
    ensures |r| <= |s| && (hi <= |s| && lo <= hi ==> r == s[lo..hi])
    ensures lo < |s| < hi ==> r == s[lo..]
    ensures hi <= lo || |s| <= lo ==> r == ""
  {
    var l := SliceBound(|s|, lo);
    var h := SliceBound(|s|, hi);
    if h <= l then "" else s[l..h]
  }

  /** The subject identifier `os.path.basename(path)[3:6]`. */
  function SubjectId(path: string): (id: string)
    ensures |id| <= 3 && '/' !in id
    ensures |Basename(path)| >= 6 ==> id == Basename(path)[3..6]
    ensures 3 < |Basename(path)| < 6 ==> id == Basename(path)[3..]
    ensures |Basename(path)| <= 3 ==> id == ""
  {
    Slice(Basename(path), 3, 6)
  }
}

=== FILE: subject.dfy ===
/** The per-subject body of the patch pipeline: derive the target path and
    the subject identifiers, crop and normalise both volumes, index them,
    walk every candidate block, keep the ones the split's rule admits and
    name them, and report the count and the percentage kept. Loading and
    saving files are left to the caller: the volumes are inputs and the
    saved pairs are the result. */
module Subject {
  import opened Wrappers
  import opened Volumes
  import opened Indexer
  import opened Geometry
  import opened Blocks
  import opened Normalize
  import opened Means
  import opened Naming
  import opened PyStr

  /** What the block loop needs to know about one subject. */
  datatype Job = Job(folderX: string, folderY: string, idX: string, idY: string,
                     padX: Volume, padY: Volume, isTest: bool)

  /** One pair of patches written by `np.save`, with the block it was cut from. */
  datatype SavedPair = SavedPair(block: Triple, nameX: string, patchX: Volume, nameY: string, patchY: Volume)

  /** The outcome for one subject. `percent` is `None` where the script's
      `cube_cnt / total_num * 100` divides by zero. */
  datatype Report = Report(idX: string, idY: string, saved: seq<SavedPair>,
                           cubeCount: nat, totalNum: nat, percent: Option<real>)

  predicate JobValid(j: Job) {
    Valid(j.padX) && Valid(j.padY)
  }

  /** The two names and the two cuts for block `t`. */
  function PairAt(j: Job, t: Triple): (p: SavedPair)
    requires JobValid(j)
    ensures p.block == t && Valid(p.patchX) && Valid(p.patchY)
    ensures EndsWith(p.nameX, CoordSuffix(t.x.start, t.y.start, t.z.start) + ".npy")
    ensures EndsWith(p.nameY, CoordSuffix(t.x.start, t.y.start, t.z.start) + ".npy")
  {
    SavedPair(t,
      SaveName(j.folderX, "X", j.idX, t.x.start, t.y.start, t.z.start), Cut(j.padX, t),
      SaveName(j.folderY, "Y", j.idY, t.x.start, t.y.start, t.z.start), Cut(j.padY, t))
  }

  /** The keep rule applied to the two cuts of block `t`. */
  predicate Keeps(j: Job, t: Triple)
    requires JobValid(j)
  {
    Kept(j.isTest, Cut(j.padX, t), Cut(j.padY, t))
  }

  /** The pairs saved while walking `ts` in order: exactly the kept blocks,
      each saved once per occurrence, all of them in the test split. */
  function SavedPairs(j: Job, ts: seq<Triple>): (r: seq<SavedPair>)
    requires JobValid(j)
    ensures |r| <= |ts|
    ensures j.isTest ==> |r| == |ts|
    ensures forall p :: p in r ==> p.block in ts && Keeps(j, p.block) && p == PairAt(j, p.block)
    ensures forall t :: t in ts && Keeps(j, t) ==> PairAt(j, t) in r
    decreases |ts|
  {
    if |ts| == 0 then []
    else
      var pre, t := ts[..|ts| - 1], ts[|ts| - 1];
      assert ts == pre + [t];
      var rest := SavedPairs(j, pre);
      if Keeps(j, t) then rest + [PairAt(j, t)] else rest
  }

  /** No two saved pairs come from blocks with the same origin. */
  ghost predicate SavedOriginsDistinct(r: seq<SavedPair>) {
    forall a, c :: 0 <= a < c < |r| ==> Origin(r[a].block) != Origin(r[c].block)
  }

  /** Walking blocks with distinct origins saves pairs with distinct origins. */
  lemma {:induction false} SavedOriginsStayDistinct(j: Job, ts: seq<Triple>)
    requires JobValid(j) && DistinctOrigins(ts)
    ensures SavedOriginsDistinct(SavedPairs(j, ts))
    decreases |ts|
  {
    if |ts| > 0 {
      var pre, t := ts[..|ts| - 1], ts[|ts| - 1];
      assert ts == pre + [t];
      assert DistinctOrigins(pre);
      SavedOriginsStayDistinct(j, pre);
      if Keeps(j, t) {
        var rest := SavedPairs(j, pre);
        forall a | 0 <= a < |rest| ensures Origin(rest[a].block) != Origin(t) {
          assert rest[a] in rest;
          var i :| 0 <= i < |pre| && pre[i] == rest[a].block;
          assert ts[i] == pre[i];
        }
        AppendOriginDistinct(rest, PairAt(j, t));
      }
    }
  }

  lemma AppendOriginDistinct(rest: seq<SavedPair>, p: SavedPair)
    requires SavedOriginsDistinct(rest)
    requires forall a :: 0 <= a < |rest| ==> Origin(rest[a].block) != Origin(p.block)
    ensures SavedOriginsDistinct(rest + [p])
  {
    var r := rest + [p];
    assert forall a :: 0 <= a < |rest| ==> r[a] == rest[a];
  }

  /** Pairs of one job with distinct origins have distinct names. */
  lemma NamesFromOrigins(j: Job, r: seq<SavedPair>)
    requires JobValid(j) && SavedOriginsDistinct(r)
    requires forall p :: p in r ==> p == PairAt(j, p.block)
    ensures forall a, c :: 0 <= a < c < |r| ==> r[a].nameX != r[c].nameX && r[a].nameY != r[c].nameY
  {
    forall a, c | 0 <= a < c < |r| ensures r[a].nameX != r[c].nameX && r[a].nameY != r[c].nameY {
      var s, t := r[a].block, r[c].block;
      assert r[a] in r && r[c] in r;
      SaveNameInjective(j.folderX, "X", j.idX, s.x.start, s.y.start, s.z.start, t.x.start, t.y.start, t.z.start);
      SaveNameInjective(j.folderY, "Y", j.idY, s.x.start, s.y.start, s.z.start, t.x.start, t.y.start, t.z.start);
    }
  }

  /** Blocks with distinct origins are saved under distinct names. */
  lemma SavedNamesDistinct(j: Job, ts: seq<Triple>)
    requires JobValid(j) && DistinctOrigins(ts)
    ensures forall a, c :: 0 <= a < c < |SavedPairs(j, ts)| ==>
      SavedPairs(j, ts)[a].nameX != SavedPairs(j, ts)[c].nameX
      && SavedPairs(j, ts)[a].nameY != SavedPairs(j, ts)[c].nameY
  {
    SavedOriginsStayDistinct(j, ts);
    NamesFromOrigins(j, SavedPairs(j, ts));
  }

  /** Walking one more block appends its pair exactly when it is kept. */
  lemma SavedPairsStep(j: Job, ts: seq<Triple>, t: Triple)
    requires JobValid(j)
    ensures SavedPairs(j, ts + [t]) == SavedPairs(j, ts) + (if Keeps(j, t) then [PairAt(j, t)] else [])
  {
    assert (ts + [t])[..|ts|] == ts;
  }

  lemma AppendAssoc(a: seq<Triple>, b: seq<Triple>, c: seq<Triple>)
    ensures (a + b) + c == a + (b + c)
  {
  }

  /** The innermost loop, over the z spans at fixed x and y spans; `prefix`
      holds the blocks visited before it. */
  method SaveColumn(j: Job, x: Span, y: Span, zs: seq<Span>, ghost prefix: seq<Triple>,
                    saved0: seq<SavedPair>, cnt0: nat) returns (saved: seq<SavedPair>, cubeCnt: nat)
    requires JobValid(j) && saved0 == SavedPairs(j, prefix) && cnt0 == |saved0|
    ensures saved == SavedPairs(j, prefix + Column(x, y, zs)) && cubeCnt == |saved|
  {
    saved, cubeCnt := saved0, cnt0;
    ghost var visited := prefix;
    assert zs[..0] == [] && prefix + Column(x, y, zs[..0]) == prefix;
    var c := 0;
    while c < |zs|
      invariant 0 <= c <= |zs|
      invariant visited == prefix + Column(x, y, zs[..c])
      invariant saved == SavedPairs(j, visited) && cubeCnt == |saved|
    {
      var t := Triple(x, y, zs[c]);
      SavedPairsStep(j, visited, t);
      ColumnStep(x, y, zs, c);
      AppendAssoc(prefix, Column(x, y, zs[..c]), [t]);
      visited := visited + [t];
      if j.isTest {
        saved := saved + [PairAt(j, t)];
        cubeCnt := cubeCnt + 1;
      } else if MeanExceeds(Cut(j.padX, t), Threshold) || MeanExceeds(Cut(j.padY, t), Threshold) {
        saved := saved + [PairAt(j, t)];
        cubeCnt := cubeCnt + 1;
      }
      c := c + 1;
    }
    assert zs[..c] == zs;
  }

  /** The middle loop, over the y spans at a fixed x span. */
  method SaveRow(j: Job, x: Span, ys: seq<Span>, zs: seq<Span>, ghost prefix: seq<Triple>,
                 saved0: seq<SavedPair>, cnt0: nat) returns (saved: seq<SavedPair>, cubeCnt: nat)
    requires JobValid(j) && saved0 == SavedPairs(j, prefix) && cnt0 == |saved0|
    ensures saved == SavedPairs(j, prefix + Row(x, ys, zs)) && cubeCnt == |saved|
  {
    saved, cubeCnt := saved0, cnt0;
    assert ys[..0] == [] && prefix + Row(x, ys[..0], zs) == prefix;
    var b := 0;
    while b < |ys|
      invariant 0 <= b <= |ys|
      invariant saved == SavedPairs(j, prefix + Row(x, ys[..b], zs)) && cubeCnt == |saved|
    {
      saved, cubeCnt := SaveColumn(j, x, ys[b], zs, prefix + Row(x, ys[..b], zs), saved, cubeCnt);
      RowStep(x, ys, zs, b);
      AppendAssoc(prefix, Row(x, ys[..b], zs), Column(x, ys[b], zs));
      b := b + 1;
    }
    assert ys[..b] == ys;
  }

  /** The three nested loops of the per-subject body with the `cube_cnt`
      counter: the pairs saved are `SavedPairs` of all candidate blocks in
      loop order, and the counter is their number. */
  method SaveBlocks(j: Job, xs: seq<Span>, ys: seq<Span>, zs: seq<Span>) returns (saved: seq<SavedPair>, cubeCnt: nat)
    requires JobValid(j)
    ensures saved == SavedPairs(j, Triples(xs, ys, zs))
    ensures cubeCnt == |saved|
  {
    saved, cubeCnt := [], 0;
    var a := 0;
    while a < |xs|
      invariant 0 <= a <= |xs|
      invariant saved == SavedPairs(j, Triples(xs[..a], ys, zs)) && cubeCnt == |saved|
    {
      saved, cubeCnt := SaveRow(j, xs[a], ys, zs, Triples(xs[..a], ys, zs), saved, cubeCnt);
      TriplesStep(xs, ys, zs, a);
      a := a + 1;
    }
    assert xs[..a] == xs;
  }

  /** `cube_cnt / total_num * 100` lies in [0, 100] when `cube_cnt <= total_num`. */
  lemma PercentBounds(cnt: nat, total: nat)
    requires 0 < total && cnt <= total
    ensures 0.0 <= (cnt as real) / (total as real) * 100.0 <= 100.0
  {
    assert (cnt as real) / (total as real) <= 1.0;
  }

  /** The number of z slices the split's crop keeps. */
  function KeptDepth(z: nat, isTest: bool): nat {
    if isTest then 0 else z - z / 2
  }

  /** The shape of an image after the split's z-crop and the padding. */
  function PreparedShape(s: Shape, isTest: bool, b: nat): Shape
    requires b > 0
  {
    Shape(PaddedLength(s.x, b), PaddedLength(s.y, b), PaddedLength(KeptDepth(s.z, isTest), b))
  }

  /** The padded, normalised volume of the X (PET) image. */
  function PrepareX(dataX: Volume, isTest: bool, b: nat): (w: Volume)
    requires b > 0 && Valid(dataX)
    ensures Valid(w) && w.shape == PreparedShape(dataX.shape, isTest, b)
  {
    var c := CropZ(dataX, isTest);
    var n := NormXVolume(c);
    CroppedPaddedShape(dataX.shape, c.shape, isTest, b);
    PadVolume(n, b)
  }

  /** Padding the cropped shape gives the prepared shape. */
  lemma CroppedPaddedShape(s: Shape, c: Shape, isTest: bool, b: nat)
    requires b > 0 && c.x == s.x && c.y == s.y
    requires !isTest ==> c.z == s.z - s.z / 2
    requires isTest ==> c.z == 0
    ensures PaddedShape(c, b) == PreparedShape(s, isTest, b)
  {
    if isTest {
      assert PaddedLength(0, b) == 0;
    }
  }

  /** Inside the embedded box, the prepared X volume holds `normX` of the
      kept upper half, shifted by the before-widths of the padding. */
  lemma PrepareXVoxels(dataX: Volume, b: nat, i: int, j: int, k: int)
    requires b > 0 && Valid(dataX)
    requires InBounds(Shape(dataX.shape.x, dataX.shape.y, KeptDepth(dataX.shape.z, false)), i, j, k)
    ensures InBounds(PrepareX(dataX, false, b).shape,
                     i + AxisPad(dataX.shape.x, b).before,
                     j + AxisPad(dataX.shape.y, b).before,
                     k + AxisPad(KeptDepth(dataX.shape.z, false), b).before)
    ensures PrepareX(dataX, false, b).voxels[i + AxisPad(dataX.shape.x, b).before]
                                            [j + AxisPad(dataX.shape.y, b).before]
                                            [k + AxisPad(KeptDepth(dataX.shape.z, false), b).before]
            == NormX(dataX.voxels[i][j][k + dataX.shape.z / 2])
  {
    var n := NormXVolume(CropZ(dataX, false));
    PrepareXIsPadded(dataX, false, b);
    PaddedAt(n, dataX.shape.x, dataX.shape.y, KeptDepth(dataX.shape.z, false), b, i, j, k);
    CroppedNormX(dataX, i, j, k);
  }

  lemma CroppedNormX(dataX: Volume, i: int, j: int, k: int)
    requires Valid(dataX)
    requires InBounds(Shape(dataX.shape.x, dataX.shape.y, KeptDepth(dataX.shape.z, false)), i, j, k)
    ensures InBounds(NormXVolume(CropZ(dataX, false)).shape, i, j, k)
    ensures NormXVolume(CropZ(dataX, false)).voxels[i][j][k] == NormX(dataX.voxels[i][j][k + dataX.shape.z / 2])
  {
  }

  /** Outside the embedded box, the prepared X volume is zero. */
  lemma PrepareXZeros(dataX: Volume, isTest: bool, b: nat, i: int, j: int, k: int)
    requires b > 0 && Valid(dataX)
    requires InBounds(PrepareX(dataX, isTest, b).shape, i, j, k)
    requires var s := dataX.shape;
      !(&& Original(i, AxisPad(s.x, b).before, s.x)
        && Original(j, AxisPad(s.y, b).before, s.y)
        && Original(k, AxisPad(KeptDepth(s.z, isTest), b).before, KeptDepth(s.z, isTest)))
    ensures PrepareX(dataX, isTest, b).voxels[i][j][k] == 0.0
  {
    PrepareXIsPadded(dataX, isTest, b);
  }

  lemma PrepareXIsPadded(dataX: Volume, isTest: bool, b: nat)
    requires b > 0 && Valid(dataX)
    ensures NormXVolume(CropZ(dataX, isTest)).shape == Shape(dataX.shape.x, dataX.shape.y, KeptDepth(dataX.shape.z, isTest))
    ensures PrepareX(dataX, isTest, b) == PadVolume(NormXVolume(CropZ(dataX, isTest)), b)
  {
  }

  /** The index of the normalised Y (CT) image, whose coordinate lists the
      block loop walks: the lists are those of the padded, cropped shape,
      and the test split has no z block. */
  function IndexY(dataY: Volume, isTest: bool, b: nat, stride: nat): (r: Index)
    requires b > 0 && stride > 0 && Valid(dataY)
    ensures Valid(r.padded) && r.padded.shape == PreparedShape(dataY.shape, isTest, b)
    ensures r.xs == AxisCoords(r.padded.shape.x, b, stride)
    ensures r.ys == AxisCoords(r.padded.shape.y, b, stride)
    ensures r.zs == AxisCoords(r.padded.shape.z, b, stride)
    ensures isTest ==> r.zs == []
  {
    var c := CropZ(dataY, isTest);
    var n := NormYVolume(c);
    CroppedPaddedShape(dataY.shape, c.shape, isTest, b);
    var r := CreateIndex3D(n, b, stride);
    assert r.padded.shape == PaddedShape(n.shape, b);
    r
  }

  /** Inside the embedded box, the padded Y volume holds `normY` of the
      kept upper half, shifted by the before-widths of the padding. */
  lemma IndexYVoxels(dataY: Volume, b: nat, stride: nat, i: int, j: int, k: int)
    requires b > 0 && stride > 0 && Valid(dataY)
    requires InBounds(Shape(dataY.shape.x, dataY.shape.y, KeptDepth(dataY.shape.z, false)), i, j, k)
    ensures InBounds(IndexY(dataY, false, b, stride).padded.shape,
                     i + AxisPad(dataY.shape.x, b).before,
                     j + AxisPad(dataY.shape.y, b).before,
                     k + AxisPad(KeptDepth(dataY.shape.z, false), b).before)
    ensures IndexY(dataY, false, b, stride).padded.voxels[i + AxisPad(dataY.shape.x, b).before]
                                                         [j + AxisPad(dataY.shape.y, b).before]
                                                         [k + AxisPad(KeptDepth(dataY.shape.z, false), b).before]
            == NormY(dataY.voxels[i][j][k + dataY.shape.z / 2])
  {
    var n := NormYVolume(CropZ(dataY, false));
    IndexYIsPadded(dataY, false, b, stride);
    PaddedAt(n, dataY.shape.x, dataY.shape.y, KeptDepth(dataY.shape.z, false), b, i, j, k);
    CroppedNormY(dataY, i, j, k);
  }

  lemma CroppedNormY(dataY: Volume, i: int, j: int, k: int)
    requires Valid(dataY)
    requires InBounds(Shape(dataY.shape.x, dataY.shape.y, KeptDepth(dataY.shape.z, false)), i, j, k)
    ensures InBounds(NormYVolume(CropZ(dataY, false)).shape, i, j, k)
    ensures NormYVolume(CropZ(dataY, false)).voxels[i][j][k] == NormY(dataY.voxels[i][j][k + dataY.shape.z / 2])
  {
  }

  /** Outside the embedded box, the padded Y volume is zero. */
  lemma IndexYZeros(dataY: Volume, isTest: bool, b: nat, stride: nat, i: int, j: int, k: int)
    requires b > 0 && stride > 0 && Valid(dataY)
    requires InBounds(IndexY(dataY, isTest, b, stride).padded.shape, i, j, k)
    requires var s := dataY.shape;
      !(&& Original(i, AxisPad(s.x, b).before, s.x)
        && Original(j, AxisPad(s.y, b).before, s.y)
        && Original(k, AxisPad(KeptDepth(s.z, isTest), b).before, KeptDepth(s.z, isTest)))
    ensures IndexY(dataY, isTest, b, stride).padded.voxels[i][j][k] == 0.0
  {
    IndexYIsPadded(dataY, isTest, b, stride);
  }

  lemma IndexYIsPadded(dataY: Volume, isTest: bool, b: nat, stride: nat)
    requires b > 0 && stride > 0 && Valid(dataY)
    ensures NormYVolume(CropZ(dataY, isTest)).shape == Shape(dataY.shape.x, dataY.shape.y, KeptDepth(dataY.shape.z, isTest))
    ensures IndexY(dataY, isTest, b, stride).padded == PadVolume(NormYVolume(CropZ(dataY, isTest)), b)
  {
  }

  /** The candidate blocks of a subject: one per combination of listed
      spans, `total_num` of them. */
  function Candidates(dataY: Volume, isTest: bool, b: nat, stride: nat): (ts: seq<Triple>)
    requires b > 0 && stride > 0 && Valid(dataY)
    ensures |ts| == |IndexY(dataY, isTest, b, stride).xs| * |IndexY(dataY, isTest, b, stride).ys| * |IndexY(dataY, isTest, b, stride).zs|
    ensures forall t :: t in ts <==> && t.x in IndexY(dataY, isTest, b, stride).xs
                                     && t.y in IndexY(dataY, isTest, b, stride).ys
                                     && t.z in IndexY(dataY, isTest, b, stride).zs
  {
    var iy := IndexY(dataY, isTest, b, stride);
    TriplesMembers(iy.xs, iy.ys, iy.zs);
    Triples(iy.xs, iy.ys, iy.zs)
  }

  /** In the test split the z-crop leaves no slice, so there is no z block
      and no candidate at all. */
  lemma TestSplitHasNoCandidates(dataY: Volume, b: nat, stride: nat)
    requires b > 0 && stride > 0 && Valid(dataY)
    ensures IndexY(dataY, true, b, stride).zs == []
    ensures Candidates(dataY, true, b, stride) == []
  {
    var c := CropZ(dataY, true);
    var n := NormYVolume(c);
    assert n.shape.z == 0;
    var iy := CreateIndex3D(n, b, stride);
    assert iy.padded.shape.z == 0;
    assert iy.zs == [];
    assert iy == IndexY(dataY, true, b, stride);
    TriplesWithoutZ(iy.xs, iy.ys);
  }

  /** The candidate blocks have distinct origins. */
  lemma CandidatesDistinct(dataY: Volume, isTest: bool, b: nat, stride: nat)
    requires b > 0 && stride > 0 && Valid(dataY)
    ensures DistinctOrigins(Candidates(dataY, isTest, b, stride))
  {
    var iy := IndexY(dataY, isTest, b, stride);
    AxisCoordsDistinctStarts(iy.padded.shape.x, b, stride);
    AxisCoordsDistinctStarts(iy.padded.shape.y, b, stride);
    AxisCoordsDistinctStarts(iy.padded.shape.z, b, stride);
    TriplesDistinct(iy.xs, iy.ys, iy.zs);
  }

  /** Images of one shape give padded volumes of one shape. */
  lemma PreparedShapesAgree(dataX: Volume, dataY: Volume, isTest: bool, b: nat, stride: nat)
    requires b > 0 && stride > 0 && Valid(dataX) && Valid(dataY)
    requires dataX.shape == dataY.shape
    ensures PrepareX(dataX, isTest, b).shape == IndexY(dataY, isTest, b, stride).padded.shape
  {
    var cx, cy := CropZ(dataX, isTest), CropZ(dataY, isTest);
    assert NormXVolume(cx).shape == NormYVolume(cy).shape;
  }

  /** Every candidate block lies inside the padded Y volume and spans `b`
      voxels along each axis. */
  lemma CandidateFits(dataY: Volume, isTest: bool, b: nat, stride: nat, t: Triple)
    requires b > 0 && stride > 0 && Valid(dataY)
    requires t in Candidates(dataY, isTest, b, stride)
    ensures Fits(t, IndexY(dataY, isTest, b, stride).padded.shape)
    ensures t.x.end - t.x.start == b && t.y.end - t.y.start == b && t.z.end - t.z.start == b
  {
    var iy := IndexY(dataY, isTest, b, stride);
    TriplesMembers(iy.xs, iy.ys, iy.zs);
  }

  /** When the two images have one shape, every candidate block lies inside
      both padded volumes, so both cuts are `b` voxels along each axis. */
  lemma SameShapeFullPatches(dataX: Volume, dataY: Volume, isTest: bool, b: nat, stride: nat, t: Triple)
    requires b > 0 && stride > 0 && Valid(dataX) && Valid(dataY)
    requires dataX.shape == dataY.shape
    requires t in Candidates(dataY, isTest, b, stride)
    ensures Cut(PrepareX(dataX, isTest, b), t).shape == Shape(b, b, b)
    ensures Cut(IndexY(dataY, isTest, b, stride).padded, t).shape == Shape(b, b, b)
  {
    PreparedShapesAgree(dataX, dataY, isTest, b, stride);
    CandidateFits(dataY, isTest, b, stride, t);
  }

  /** The loop's view of one subject: its save folders, the identifiers
      `basename(path)[3:6]` of the image and of its target path, the two
      padded volumes and the split. */
  function MakeJob(b: nat, stride: nat, folderX: string, folderY: string, isTest: bool,
                   pathX: string, dataX: Volume, dataY: Volume): (j: Job)
    requires b > 0 && stride > 0 && Valid(dataX) && Valid(dataY)
    ensures JobValid(j) && j.isTest == isTest
    ensures j.idX == SubjectId(pathX) && j.idY == SubjectId(TargetPath(pathX))
  {
    Job(folderX, folderY, SubjectId(pathX), SubjectId(TargetPath(pathX)),
        PrepareX(dataX, isTest, b), IndexY(dataY, isTest, b, stride).padded, isTest)
  }

  /** The per-subject body for the image `pathX` of a split (`isTest` for
      the test split), given the loaded volumes of the image and of its
      target: the block size `b` and the stride must be positive, as the
      floor divisions and remainders of the indexer require. The saved
      pairs are those of the kept candidate blocks, in loop order. */
  method ProcessSubject(b: nat, stride: nat, folderX: string, folderY: string, isTest: bool,
                        pathX: string, dataX: Volume, dataY: Volume) returns (rep: Report)
    requires b > 0 && stride > 0 && Valid(dataX) && Valid(dataY)
    ensures rep.idX == SubjectId(pathX) && rep.idY == SubjectId(TargetPath(pathX))
    ensures rep.saved == SavedPairs(MakeJob(b, stride, folderX, folderY, isTest, pathX, dataX, dataY),
                                    Candidates(dataY, isTest, b, stride))
    ensures rep.totalNum == |Candidates(dataY, isTest, b, stride)|
    ensures rep.cubeCount == |rep.saved| <= rep.totalNum
    ensures rep.percent.None? <==> rep.totalNum == 0
    ensures rep.percent.Some? ==> 0.0 <= rep.percent.value <= 100.0
    ensures rep.percent.Some? ==> rep.percent.value == (rep.cubeCount as real) / (rep.totalNum as real) * 100.0
    ensures isTest ==> rep.totalNum == 0 && rep.saved == [] && rep.percent == None
  {
    var job := MakeJob(b, stride, folderX, folderY, isTest, pathX, dataX, dataY);
    var iy := IndexY(dataY, isTest, b, stride);
    var saved, cubeCnt := SaveBlocks(job, iy.xs, iy.ys, iy.zs);
    var totalNum := |iy.xs| * |iy.ys| * |iy.zs|;
    var percent := None;
    if totalNum != 0 {
      PercentBounds(cubeCnt, totalNum);
      percent := Some((cubeCnt as real) / (totalNum as real) * 100.0);
    }
    if isTest {
      TestSplitHasNoCandidates(dataY, b, stride);
    }
    rep := Report(job.idX, job.idY, saved, cubeCnt, totalNum, percent);
  }

  /** What a subject leaves on disk: every saved pair is a kept candidate
      block cut from both padded volumes and named after its origin; every
      kept candidate is saved; no two pairs share a name; and when the two
      images have one shape every patch is `b` voxels along each axis. */
  lemma SubjectOutput(b: nat, stride: nat, folderX: string, folderY: string, isTest: bool,
                      pathX: string, dataX: Volume, dataY: Volume)
    requires b > 0 && stride > 0 && Valid(dataX) && Valid(dataY)
    ensures var j := MakeJob(b, stride, folderX, folderY, isTest, pathX, dataX, dataY);
      var ts := Candidates(dataY, isTest, b, stride);
      var saved := SavedPairs(j, ts);
      && (forall p :: p in saved ==>
            && p.block in ts
            && p.patchX == Cut(PrepareX(dataX, isTest, b), p.block)
            && p.patchY == Cut(IndexY(dataY, isTest, b, stride).padded, p.block)
            && p.nameX == SaveName(folderX, "X", j.idX, p.block.x.start, p.block.y.start, p.block.z.start)
            && p.nameY == SaveName(folderY, "Y", j.idY, p.block.x.start, p.block.y.start, p.block.z.start)
            && Kept(isTest, p.patchX, p.patchY))
      && (forall t :: t in ts && Kept(isTest, Cut(PrepareX(dataX, isTest, b), t), Cut(IndexY(dataY, isTest, b, stride).padded, t))
            ==> PairAt(j, t) in saved)
      && (forall a, c :: 0 <= a < c < |saved| ==> saved[a].nameX != saved[c].nameX && saved[a].nameY != saved[c].nameY)
      && (dataX.shape == dataY.shape ==>
            forall p :: p in saved ==> p.patchX.shape == Shape(b, b, b) && p.patchY.shape == Shape(b, b, b))
  {
    var j := MakeJob(b, stride, folderX, folderY, isTest, pathX, dataX, dataY);
    var ts := Candidates(dataY, isTest, b, stride);
    CandidatesDistinct(dataY, isTest, b, stride);
    SavedNamesDistinct(j, ts);
    if dataX.shape == dataY.shape {
      forall p | p in SavedPairs(j, ts) ensures p.patchX.shape == Shape(b, b, b) && p.patchY.shape == Shape(b, b, b) {
        SameShapeFullPatches(dataX, dataY, isTest, b, stride, p.block);
      }
    }
  }
}

=== FILE: volumes.dfy ===
/** Three-dimensional intensity volumes, the values the preprocessing script
    loads from NIfTI files and cuts into patches. A volume carries its shape
    explicitly, so that a volume with a zero extent on one axis (the test
    split's z-crop produces such volumes) still remembers the other extents,
    as an array shape does. */
module Volumes {

  datatype Shape = Shape(x: nat, y: nat, z: nat)

  datatype Volume = Volume(shape: Shape, voxels: seq<seq<seq<real>>>)

  /** The voxel array is a full box of the recorded shape. */
  predicate Valid(v: Volume) {
    && |v.voxels| == v.shape.x
    && (forall i :: 0 <= i < v.shape.x ==> |v.voxels[i]| == v.shape.y)
    && (forall i, j :: 0 <= i < v.shape.x && 0 <= j < v.shape.y ==> |v.voxels[i][j]| == v.shape.z)
  }

  predicate InBounds(s: Shape, i: int, j: int, k: int) {
    0 <= i < s.x && 0 <= j < s.y && 0 <= k < s.z
  }

  /** Number of voxels in a volume of shape `s`. */
  function Count(s: Shape): nat {
    s.x * s.y * s.z
  }

  /** One more slab of `c` voxels. */
  lemma CountStep(a: nat, n: nat, c: nat)
    requires a == n + 1
    ensures a * c == n * c + c
  {
  }

  lemma MulAssoc(a: nat, b: nat, c: nat)
    ensures a * b * c == a * (b * c)
  {
  }

  /** Applies `f` to every voxel, as an element-wise array expression does. */
  function MapVoxels(v: Volume, f: real -> real): (w: Volume)
    requires Valid(v)
    ensures Valid(w) && w.shape == v.shape
    ensures forall i, j, k :: InBounds(v.shape, i, j, k) ==> w.voxels[i][j][k] == f(v.voxels[i][j][k])
  {
    Volume(v.shape,
      seq(v.shape.x, i requires 0 <= i < v.shape.x =>
        seq(v.shape.y, j requires 0 <= j < v.shape.y =>
          seq(v.shape.z, k requires 0 <= k < v.shape.z => f(v.voxels[i][j][k])))))
  }

  /** Every voxel lies in the closed interval [lo, hi]. */
  ghost predicate AllWithin(v: Volume, lo: real, hi: real)
    requires Valid(v)
  {
    forall i, j, k :: InBounds(v.shape, i, j, k) ==> lo <= v.voxels[i][j][k] <= hi
  }
}

=== FILE: wrappers.dfy ===
/** The optional value used where the script produces no number: the mean of
    an empty patch and the percentage of a subject without candidate patches. */
module Wrappers {

  datatype Option<+T> = None | Some(value: T)
}
